=== FILE: README.md ===
# Categorical decision tree, label encoder and accuracy — a Dafny model

This project models the classification core of the `snugml/go` machine-learning
library:

- the ID3-style decision tree of `models/decision_tree_classifier.go`, which
  trains on integer-coded categorical rows and labels;
- the label encoder of `models/label_encoder.go`, which numbers string labels;
- the accuracy metric of `models/metrics.go`.

The tree builder stops in three cases:

- with the common label when the labels are pure;
- with the majority label when the depth limit is reached, no columns remain,
  or no column has positive gain.

Otherwise it splits on the first column of maximal gain. It gives one child
per distinct value of that column. Each child is built from the rows holding
that value, with the column deleted.

Prediction walks a row down the tree, deleting each column it has used. When a
split has no child for the row's value, prediction returns the majority of all
leaf labels below that split. That vote counts each leaf once, however many
training rows the leaf had.

In Go a node is one struct, and a label of -1 marks a split. Here a node is a
tagged datatype (`DecisionTree.Node`). The Go encoding is modelled separately
in module `Sentinel`, together with the inputs on which the two differ: any
tree with a leaf labelled -1.

## Layout

| file | module | contents |
|---|---|---|
| `results.dfy` | `Results` | `Option` and `Result` |
| `seqs.dfy` | `Seqs` | counting, no-duplicates, first-seen distinct elements |
| `tree_util.dfy` | `TreeUtil` | `majorityLabel`, `getColumn`, the row-selection loop, `subsetInts`, `removeIndexInt`, `subsetRemoveColumn` |
| `best_split.dfy` | `Splitting` | `bestSplit` over a caller-supplied gain |
| `decision_tree.dfy` | `DecisionTree` | nodes, `buildTree`, `predictRow`, `getAllLabels` |
| `tree_proofs.dfy` | `TreeProofs` | properties of the built tree and of prediction |
| `classifier.dfy` | `Classifier` | `Fit` and `Predict` |
| `sentinel.dfy` | `Sentinel` | the Go node encoding and its label -1 sentinel |
| `label_encoder.dfy` | `LabelEncoder` | the label encoder |
| `metrics.dfy` | `Metrics` | `AccuracyScore` |

## Model

| member | source | states |
|---|---|---|
| Seqs.Distinct | models/label_encoder.go:70-80 | The unique elements have no duplicates, and an element is in the result exactly when it is in the input. A non-empty input keeps its first element first. The same function models `uniqueInts` (decision_tree_classifier.go:225-235). |
| Seqs.DistinctFirstSeenOrder | models/label_encoder.go:73-78 | The unique elements come in the order of their first occurrence, as the `seen` loop appends them. |
| Seqs.DistinctSingleton | models/decision_tree_classifier.go:44-48 | There is exactly one unique label exactly when the labels are non-empty and all equal. |
| Seqs.FirstIndex | models/label_encoder.go:73-78 | The position returned holds the element, and no earlier position does. |
| Seqs.CountCons | models/decision_tree_classifier.go:238-241 | Prepending a label adds one to its count and leaves every other count unchanged. |
| Seqs.FirstIndexSnoc | models/label_encoder.go:73-78 | Appending an element does not move the first occurrence of an element already present. |
| TreeUtil.MajorityScanSpec | models/decision_tree_classifier.go:244-249 | The strict-greater scan over the count map keeps its start only if nothing beats it. Otherwise it ends on a scanned label whose count no scanned label exceeds. |
| TreeUtil.MajorityAnyOrder | models/decision_tree_classifier.go:237-251 | Whatever order the map yields its labels in, the result is -1 on no labels and otherwise a label of maximal count. |
| TreeUtil.MajorityLabel | models/decision_tree_classifier.go:237-251 | The result is -1 for empty labels, else a label of `y` that no label outnumbers. |
| TreeUtil.MatchingRows | models/decision_tree_classifier.go:73-78 | The selected positions are exactly the rows whose chosen column holds the value. They are ascending, and there are as many as the column has copies of the value. |
| TreeUtil.MatchingFrom | models/decision_tree_classifier.go:74-78 | From row `i` on, only rows holding the value are selected, in increasing order. |
| TreeUtil.MatchingFromCount | models/decision_tree_classifier.go:74-78 | The number of rows selected from row `i` on equals the count of the value in the rest of the column. |
| TreeUtil.MatchingFromComplete | models/decision_tree_classifier.go:74-78 | Every row from `i` on that holds the value is selected. |
| TreeUtil.RemoveIndex | models/decision_tree_classifier.go:283-286 | The result is one shorter. It equals the input before `idx`, and after `idx` it is the input shifted left by one. |
| TreeUtil.RemoveIndexRestores | models/decision_tree_classifier.go:283-286 | Re-inserting the removed element at `idx` gives back the original row. |
| TreeUtil.KeepColumnsFrom | models/decision_tree_classifier.go:264-269 | The column-skipping copy loop deletes exactly position `col`. A row too short to have that column is copied whole. |
| TreeUtil.SubsetRemoveColumn | models/decision_tree_classifier.go:261-273 | There is one output row per index. Each is the selected row with column `col` removed, or the row unchanged when it is too short. |
| TreeUtil.SubsetRemoveColumnRows | models/decision_tree_classifier.go:263-271 | The copy loop agrees with `RemoveIndex` on every selected row that has the column. |
| Splitting.ScanFirstMax | models/decision_tree_classifier.go:134-141 | The strict-greater scan returns a column whose gain is maximal and strictly greater than the gain of every earlier column. |
| Splitting.BestSplit | models/decision_tree_classifier.go:126-149 | The result is -1 exactly when there are no rows, no columns, or no column with positive gain. Otherwise it is the first column of maximal gain, and that gain is positive. |
| DecisionTree.Decide | models/decision_tree_classifier.go:44-61 | Pure labels give a leaf with that label. The depth limit or an empty row gives a leaf. A leaf that is not pure carries a majority label. A split happens exactly when the labels are mixed, depth remains and some column has positive gain, and then it is on the first best column. |
| DecisionTree.RowsWith | models/decision_tree_classifier.go:80 | The child's rows are one per selected index. They are rectangular and one column narrower. |
| DecisionTree.LabelsWith | models/decision_tree_classifier.go:81 | The child's labels are one per selected index. |
| DecisionTree.FindBranch | models/decision_tree_classifier.go:171-177 | The search returns the first child whose value matches, or -1 exactly when none matches. |
| TreeProofs.ChildRows | models/decision_tree_classifier.go:72-81 | A value seen in the column selects a non-empty, rectangular set of rows one column narrower. |
| TreeProofs.BuildBranchesAt | models/decision_tree_classifier.go:72-85 | Children are appended one per value, in order, and child `k` is the tree grown from the rows holding value `k`. |
| TreeProofs.BuildTreeUnfold | models/decision_tree_classifier.go:63-87 | A split node carries the chosen column and that column's distinct values. Each value has its own subtree one level deeper. |
| TreeProofs.BuildTreeWellFormed | models/decision_tree_classifier.go:43-88 | The tree built from `w`-column rows has the shape of such a tree. Every split is on a column of its level, with distinct non-empty values that match its children, and children are shaped for `w-1` columns. |
| TreeProofs.SubtreeWellFormed | models/decision_tree_classifier.go:80-83 | A child is shaped for one column fewer. |
| TreeProofs.SplitStepWellFormed | models/decision_tree_classifier.go:63-87 | One split step preserves the shape when every child has it. |
| TreeProofs.SplitNodeWellFormed | models/decision_tree_classifier.go:65-85 | A node with the chosen column, its distinct values and one well-shaped child per value is well shaped. |
| TreeProofs.BuildTreeDepthBound | models/decision_tree_classifier.go:52-54 | No root-to-leaf path of the tree built at `depth` crosses more than `maxDepth - depth` splits, or any split when that is not positive. |
| TreeProofs.SubtreeDepthBound | models/decision_tree_classifier.go:83 | A child built one level deeper respects the remaining depth budget. |
| TreeProofs.SplitStepDepthBound | models/decision_tree_classifier.go:52-83 | A split only happens with budget left, so a split step uses exactly one level of the budget. |
| TreeProofs.SplitNodeHeight | models/decision_tree_classifier.go:65-85 | A node whose children are at most `h-1` high is at most `h` high. |
| TreeProofs.WellFormedHeight | models/decision_tree_classifier.go:52 | Each split removes a column, so a tree over `w` columns is at most `w` splits deep. |
| TreeProofs.WellFormedFits | models/decision_tree_classifier.go:169 | A row at least as wide as the training rows never makes prediction index out of range. |
| TreeProofs.BranchLabelsContain | models/decision_tree_classifier.go:193-196 | The labels under each child are among the labels collected for the split. |
| TreeProofs.BranchOfLabel | models/decision_tree_classifier.go:193-196 | Every label collected for a split comes from some child. |
| TreeProofs.AllLabelsNonEmpty | models/decision_tree_classifier.go:189-198 | A well-shaped tree yields at least one leaf label. |
| TreeProofs.PredictRowIsLeafLabel | models/decision_tree_classifier.go:165-186 | On a well-shaped tree, prediction returns a label some leaf carries. When the value is unseen, the result is a most frequent leaf label below the split. |
| TreeProofs.BuildTreeLabels | models/decision_tree_classifier.go:43-88 | Every leaf label of the built tree is one of the training labels. |
| TreeProofs.SubtreeLabels | models/decision_tree_classifier.go:80-83 | Every leaf label of a child is a training label of the parent. |
| TreeProofs.SplitStepLabels | models/decision_tree_classifier.go:63-87 | A split step keeps leaf labels within the training labels when every child does. |
| TreeProofs.SplitNodeLabels | models/decision_tree_classifier.go:65-85 | A node over children whose leaf labels are training labels has only training labels as leaf labels. |
| TreeProofs.FollowsFits | models/decision_tree_classifier.go:165-186 | A row that always finds a child has every column prediction reads. |
| TreeProofs.SumCountsCovers | models/decision_tree_classifier.go:72-78 | Counting each distinct value once over a column holding only those values counts every row exactly once. |
| TreeProofs.SumSizesIsSumCounts | models/decision_tree_classifier.go:72-78 | The rows sent to the children number the sum of the values' counts in the column. |
| TreeProofs.ColumnPartition | models/decision_tree_classifier.go:63-81 | The children's row sets partition the rows. Each is non-empty, holds exactly the rows with its value, and together they add up to all rows. |
| TreeProofs.BuildTreeSplit | models/decision_tree_classifier.go:57-87 | A split of the built tree is on the column `bestSplit` chose, with that column's distinct values, each once. Every row's value has a child, each child is grown from its own rows with that column deleted, and the children's rows number `|X|`. |
| TreeProofs.PredictOnTrainingRow | models/decision_tree_classifier.go:165-186 | A training row never reaches the unseen-value fallback. Its prediction is a most frequent label among the training rows sharing its leaf, which include the row, so a pure leaf returns the row's own label. |
| TreeProofs.SubtreeOnTrainingRow | models/decision_tree_classifier.go:184-185 | The training-row property for the child the row descends into, stated for the row with the split column removed. |
| TreeProofs.TrainingRowSplitStep | models/decision_tree_classifier.go:172-185 | A split step carries the training-row property from the row's child up to the split. |
| TreeProofs.TrainingRowBranch | models/decision_tree_classifier.go:172-177 | At a split, a training row finds the child of its own value, which is the subtree for that value. |
| TreeProofs.SplitNodeBranch | models/decision_tree_classifier.go:172-177 | In a split over a column's distinct values, any value seen in the column finds the child holding that value's subtree. |
| TreeProofs.DescendSplit | models/decision_tree_classifier.go:184-185 | Prediction at a split, when a child is found, is prediction on the reduced row in that child. |
| TreeProofs.LeafGroupUnfold | models/decision_tree_classifier.go:74-83 | At a split, a row's leaf group is its leaf group among the rows of its value. |
| Classifier.Fit | models/decision_tree_classifier.go:30-40 | Empty input is refused first, then a length mismatch, and a refused call leaves the model untouched. Otherwise the stored tree is the tree built from depth 0. It is well shaped, no deeper than the depth limit or the column count, and carries only training labels. |
| Classifier.Predict | models/decision_tree_classifier.go:152-162 | An untrained model is refused. Otherwise there is one prediction per row, each the tree's answer for that row and, on a well-shaped tree, a leaf label. |
| Classifier.FittedAcceptsWideRows | models/decision_tree_classifier.go:165-169 | After a successful fit, any rows at least as wide as the training rows can be predicted without indexing out of range. |
| Classifier.FitThenPredict | models/decision_tree_classifier.go:30-40 | Fitting then predicting the training rows succeeds. Each answer is a majority label of the row's leaf, and the answers are exactly `y` when every leaf is pure. |
| Classifier.TrainingRows | models/decision_tree_classifier.go:152-162 | For the tree built from depth 0, every training row fits and gets a majority label of its leaf group. |
| Classifier.PredictTrainingRows | models/decision_tree_classifier.go:152-162 | `Predict` on the training rows inherits those facts row by row. |
| Sentinel.SentinelLeafMisread | models/decision_tree_classifier.go:12-13 | When every training label is -1, the built tree is a leaf labelled -1 and the tagged model predicts -1. The Go encoding of that leaf fails with an index out of range on every row, and its label is missing from `getAllLabels`. |
| Sentinel.SentinelExample | models/decision_tree_classifier.go:166-169 | On the rows `[[0]]` with labels `[-1]`, the Go reading of the tree fails on the row `[0]`. |
| Sentinel.RawAllLabelsAgree | models/decision_tree_classifier.go:189-198 | Without a -1 leaf, the Go label collection equals the tagged one. |
| Sentinel.RawChildLabelsAgree | models/decision_tree_classifier.go:193-196 | Without a -1 leaf, the Go collection over children equals the tagged one. |
| Sentinel.EncodingAgrees | models/decision_tree_classifier.go:165-186 | Without a -1 leaf, Go prediction on a fitting row succeeds and equals tagged prediction. |
| Sentinel.TrainedWithoutSentinel | models/decision_tree_classifier.go:43-88 | A tree trained on labels other than -1 predicts in the Go encoding exactly as in the tagged model. |
| Sentinel.EncodedLabelsWithoutSentinel | models/decision_tree_classifier.go:43-88 | A tree trained on the numbers a fitted label encoder assigns predicts in the Go encoding exactly as in the tagged model, because those numbers are never -1. |
| LabelEncoder.NewEncoder | models/label_encoder.go:14-20 | A new encoder has no classes and consistent, empty tables. |
| LabelEncoder.Fit | models/label_encoder.go:23-32 | The classes are the distinct labels in first-seen order. The two tables are inverse numberings of the classes by position. |
| LabelEncoder.IndexTable | models/label_encoder.go:28-31 | The class-to-number table has exactly the classes as keys, each mapped to its position. |
| LabelEncoder.ClassTable | models/label_encoder.go:28-31 | The number-to-class table has exactly the positions as keys, each mapped to its class. |
| LabelEncoder.FirstMissing | models/label_encoder.go:40-44 | The position returned is the first entry with no table entry, or the length when every entry has one. |
| LabelEncoder.LookupLabels | models/label_encoder.go:39-47 | Success comes exactly when every label has a number, and each output is its label's number. Otherwise the first unknown label is reported. |
| LabelEncoder.LookupIndices | models/label_encoder.go:52-60 | Success comes exactly when every number has a label, and each output is its number's label. Otherwise the first unknown number is reported. |
| LabelEncoder.Transform | models/label_encoder.go:35-48 | An encoder with no classes refuses every input. Otherwise success comes exactly when every label is a class, with each label replaced by its number, and failure names the first unknown label. |
| LabelEncoder.InverseTransform | models/label_encoder.go:51-61 | Success comes exactly when every number is a class position, with no fitted check, and each number is replaced by its class. Failure names the first unknown number. |
| LabelEncoder.DecodeEncoded | models/label_encoder.go:35-61 | Labels that are classes survive encoding then decoding. |
| LabelEncoder.EncodeDecoded | models/label_encoder.go:35-61 | Numbers that are class positions survive decoding then encoding. |
| LabelEncoder.TransformPositions | models/label_encoder.go:35-48 | For a fitted encoder, every number a successful encoding produces is the position of that label's class, so it lies between 0 and the class count. |
| LabelEncoder.FitTransform | models/label_encoder.go:64-67 | Empty input is refused as not fitted. Otherwise every label gets the position of its class, and the first label gets 0. |
| Metrics.MatchCount | models/metrics.go:10-15 | The counting loop counts at most the number of positions. |
| Metrics.MatchCountIsAgreements | models/metrics.go:10-15 | The counting loop counts exactly the positions where the sequences agree. |
| Metrics.MatchCountFull | models/metrics.go:10-15 | The count reaches the length exactly when the sequences are equal. |
| Metrics.MatchCountZero | models/metrics.go:10-15 | The count is zero exactly when no position agrees. |
| Metrics.AccuracyScore | models/metrics.go:5-18 | The score is 0 on empty or mismatched input, otherwise agreements divided by length. It lies between 0 and 1, is 1 exactly on equal non-empty input, and is 0 exactly when nothing agrees. |
| Metrics.MatchCountSymmetric | models/metrics.go:10-15 | The count of agreeing positions does not depend on which sequence is the truth. |
| Metrics.AccuracySymmetric | models/metrics.go:5-18 | Swapping truth and prediction does not change the score. |

## Left out

- Entropy and information gain (decision_tree_classifier.go:91-123) are not modelled. They are floating-point computations, so the gain is a caller-supplied function `gain(X, y, column)`, and everything about splitting holds for any gain function.
- The `Gain` diagnostics text that `bestSplit` appends to is left out. So are `PrintTree`, `printTree`, `itoa` and `ftoa`, which only format text.
- `uniqueInts` and the label loop of `majorityLabel` iterate a Go map, whose order is unspecified. The model lists each split's values in first-seen order (`Seqs.Distinct`), and so fixes the order of its branches and of `getAllLabels`. Go does not promise that order. `TreeProofs.BuildTreeSplit` and `TreeProofs.BuildTreeUnfold` describe the tree for that order only. The majority-vote contracts (`TreeUtil.MajorityLabel`, `TreeUtil.MajorityAnyOrder`) hold for any order and promise no tie-break between equally frequent labels.
- TreeUtil.MajorityLabel: its contract says only "a most frequent label", because Go's tie-break depends on map iteration order.
- Out-of-range indexing panics become preconditions:
  - `Rectangular(X)` for training. It is the dataset invariant that every row has the same number of attributes, and it is stronger than what Go needs to avoid a panic. At a node, Go indexes rows only with columns read off that node's first row, so rows wider than the first are safe at the root: `X = [[0], [1, 5]]`, `y = [0, 1]` does not panic. Deeper down they are not, because a child's first row may be one of the wider rows. With `X = [[0], [1, 5], [1]]`, `y = [0, 1, 2]` and a depth limit of 2 or more, the root splits on column 0. Its child for value 1 gets the rows `[[5], []]` with mixed labels, and computing the gain of column 0 there reads the empty row and panics. Inputs on which `buildTree` never calls `bestSplit` (decision_tree_classifier.go:57) do not index rows at all: pure labels (`X = [[1, 2], [3]]`, `y = [7, 7]` gives a leaf labelled 7) and a depth limit of 0 or less. The model does not cover such ragged inputs;
  - `Fits(row, tree)` for prediction, since `predictRow` indexes the row with each split's column.
- A `nil` tree is `Option.None`. A Go receiver that is mutated (`dt.Tree`, the encoder's fields) is modelled as a returned value.
- `LabelEncoder.Fit` builds its two tables in two loops. Go fills both in one loop, and the results are the same.
- `AccuracyScore` is computed as an exact `real` rather than a `float64` quotient, so rounding is not modelled.
- The default depth limit is not modelled. `maxDepth` is any integer, and with a limit of 0 or less the tree is a single leaf.
- `getColumn` and `subsetInts` have no contract of their own. `TreeUtil.GetColumn` and `TreeUtil.SubsetInts` define them directly: a column read off every row, and the labels at the selected indices in index order. `TreeUtil.MatchingRows` states which indices are selected. `DecisionTree.LabelsWith` states only how many labels a child gets. `TreeProofs.SubtreeLabels` uses the definition to show that every leaf label below a branch is a training label.

## Findings

| source | as written | input that shows it | evidently intended | confidence | as-written member | corrected member |
|---|---|---|---|---|---|---|
| models/decision_tree_classifier.go:12-13 | A node uses `Label == -1` to mean "not a leaf", but -1 is also a valid class label. `buildTree` can store a leaf whose label is -1, and `predictRow` then reads that leaf as a split on column -1 and indexes `row[-1]`. `getAllLabels` drops that leaf's label as well. | Fit on `X = [[0]]`, `y = [-1]`, then predict `[0]`. | A leaf labelled -1 is a leaf and predicts -1. | not executed | Sentinel.SentinelLeafMisread | Sentinel.EncodingAgrees |

In the corrected model (`DecisionTree.Node`), leaves and splits are tagged
constructors, so any label is allowed. `Sentinel.EncodingAgrees` proves that the Go
encoding behaves like the tagged tree whenever no leaf carries -1.
`Sentinel.TrainedWithoutSentinel` extends this to every tree trained on labels
other than -1, such as the label encoder's numbers, which are never negative.

=== FILE: best_split.dfy ===
/**
 * Split selection. The information gain of a column is a floating-point
 * entropy difference in the original; here it is an arbitrary function
 * supplied by the caller, and only the selection rule around it is modelled.
 */
module Splitting {

  /** Gain of splitting rows `X` with labels `y` on column `i`. */
  type Gain = (seq<seq<int>>, seq<int>, nat) -> real

  /** The gains of columns `0 .. n-1`, left to right. */
  function Gains(X: seq<seq<int>>, y: seq<int>, gain: Gain, n: nat): seq<real>
  {
    seq(n, i requires 0 <= i < n => gain(X, y, i))
  }

  /**
   * The left-to-right scan of `bestSplit` from column `i` on, with `best` the
   * column kept so far: a column replaces it only with a strictly larger gain.
   * The result is the first column of maximal gain.
   */
  function ScanFirstMax(g: seq<real>, i: nat, best: nat): (r: nat)
    requires best < i <= |g|
    requires forall j :: 0 <= j < i ==> g[j] <= g[best]
    requires forall j :: 0 <= j < best ==> g[j] < g[best]
    ensures r < |g|
    ensures forall j :: 0 <= j < |g| ==> g[j] <= g[r]
    ensures forall j :: 0 <= j < r ==> g[j] < g[r]
    decreases |g| - i
  {
    if i == |g| then best
    else if g[i] > g[best] then ScanFirstMax(g, i + 1, i)
    else ScanFirstMax(g, i + 1, best)
  }

  /**
   * `bestSplit`: -1 when there are no rows, no columns, or no column with a
   * positive gain; otherwise the first column of maximal gain. Starting the
   * scan with column 0 as the incumbent is the Go scan that starts from a gain
   * of minus infinity, which column 0 always beats.
   */
  function BestSplit(X: seq<seq<int>>, y: seq<int>, gain: Gain): (r: int)
    ensures r == -1 || (|X| > 0 && 0 <= r < |X[0]|)
    ensures r == -1 <==> |X| == 0 || |X[0]| == 0 || forall j :: 0 <= j < |X[0]| ==> gain(X, y, j) <= 0.0
    ensures r >= 0 ==> gain(X, y, r) > 0.0
    ensures r >= 0 ==> forall j :: 0 <= j < |X[0]| ==> gain(X, y, j) <= gain(X, y, r)
    ensures r >= 0 ==> forall j :: 0 <= j < r ==> gain(X, y, j) < gain(X, y, r)
  {
    if |X| == 0 || |X[0]| == 0 then -1
    else
      var g := Gains(X, y, gain, |X[0]|);
      assert forall j :: 0 <= j < |g| ==> g[j] == gain(X, y, j);
      var k := ScanFirstMax(g, 1, 0);
      if g[k] <= 0.0 then -1 else k
  }
}

=== FILE: classifier.dfy ===
/**
 * The public face of the decision tree: `Fit` checks its input and stores the
 * built tree, `Predict` runs every row down the stored tree. The information
 * gain is the caller's `gain` function.
 */
module Classifier {
  import opened Results
  import opened TreeUtil
  import opened Splitting
  import opened DecisionTree
  import opened TreeProofs

  datatype TreeError = EmptyInput | LengthMismatch | NotTrained

  /** `DecisionTreeClassifier`: the stored tree (`None` until a `Fit` succeeds) and the depth limit. */
  datatype Model = Model(tree: Option<Node>, maxDepth: int)

  /** What `Fit` leaves behind: the model after the call and the error it returned, if any. */
  datatype FitOutcome = FitOutcome(model: Model, error: Option<TreeError>)

  /**
   * `Fit`: empty rows or labels are refused first, then a length mismatch;
   * a refused call leaves the model as it was. Otherwise the stored tree is
   * the tree built from depth 0, and it has the shape of a tree over the
   * data's columns, never deeper than the depth limit nor the column count.
   */
  function Fit(m: Model, X: seq<seq<int>>, y: seq<int>, gain: Gain): (r: FitOutcome)
    requires |X| == |y| ==> Rectangular(X)
    ensures r.error == Some(EmptyInput) <==> |X| == 0 || |y| == 0
    ensures r.error == Some(LengthMismatch) <==> |X| > 0 && |y| > 0 && |X| != |y|
    ensures r.error.Some? ==> r.model == m
    ensures r.error.None? ==> r.model.maxDepth == m.maxDepth && r.model.tree == Some(BuildTree(X, y, 0, m.maxDepth, gain))
    ensures r.error.None? ==>
      && WellFormed(r.model.tree.value, Width(X))
      && HeightAtMost(r.model.tree.value, Budget(0, m.maxDepth))
      && HeightAtMost(r.model.tree.value, Width(X))
    ensures r.error.None? ==> forall l :: l in AllLabels(r.model.tree.value) ==> l in y
  {
    if |X| == 0 || |y| == 0 then FitOutcome(m, Some(EmptyInput))
    else if |X| != |y| then FitOutcome(m, Some(LengthMismatch))
    else
      BuildTreeWellFormed(X, y, 0, m.maxDepth, gain);
      BuildTreeDepthBound(X, y, 0, m.maxDepth, gain);
      WellFormedHeight(BuildTree(X, y, 0, m.maxDepth, gain), Width(X));
      BuildTreeLabels(X, y, 0, m.maxDepth, gain);
      FitOutcome(Model(Some(BuildTree(X, y, 0, m.maxDepth, gain)), m.maxDepth), None)
  }

  /** Every row has the columns prediction reads on its way down the stored tree. */
  ghost predicate Accepts(m: Model, X: seq<seq<int>>)
  {
    m.tree.Some? ==> forall i :: 0 <= i < |X| ==> Fits(X[i], m.tree.value)
  }

  /**
   * `Predict`: refused with `NotTrained` when no tree is stored; otherwise one
   * prediction per row, each the stored tree's answer for that row. On a
   * well-formed tree every answer is a label some leaf carries.
   */
  function Predict(m: Model, X: seq<seq<int>>): (r: Result<seq<int>, TreeError>)
    requires Accepts(m, X)
    ensures r.Failure? <==> m.tree.None?
    ensures r.Failure? ==> r.error == NotTrained
    ensures r.Success? ==> |r.value| == |X| && forall i :: 0 <= i < |X| ==> r.value[i] == PredictRow(X[i], m.tree.value)
    ensures r.Success? ==> forall w: nat :: WellFormed(m.tree.value, w) ==> forall i :: 0 <= i < |X| ==> r.value[i] in AllLabels(m.tree.value)
  {
    match m.tree
    case None => Failure(NotTrained)
    case Some(t) =>
      var p := seq(|X|, i requires 0 <= i < |X| => PredictRow(X[i], t));
      assert forall w: nat, i :: WellFormed(t, w) && 0 <= i < |X| ==> p[i] in AllLabels(t) by {
        forall w: nat, i | WellFormed(t, w) && 0 <= i < |X|
          ensures p[i] in AllLabels(t)
        {
          PredictRowIsLeafLabel(X[i], t, w);
        }
      }
      Success(p)
  }

  /** A fitted model accepts every row with at least as many columns as the training rows. */
  lemma FittedAcceptsWideRows(m: Model, X: seq<seq<int>>, y: seq<int>, gain: Gain, rows: seq<seq<int>>)
    requires |X| == |y| ==> Rectangular(X)
    requires Fit(m, X, y, gain).error.None?
    requires forall i :: 0 <= i < |rows| ==> |rows[i]| >= Width(X)
    ensures Accepts(Fit(m, X, y, gain).model, rows)
  {
    var t := Fit(m, X, y, gain).model.tree.value;
    forall i | 0 <= i < |rows|
      ensures Fits(rows[i], t)
    {
      WellFormedFits(rows[i], t, Width(X));
    }
  }

  /** Every training row shares its leaf only with rows of its own label. */
  ghost predicate PureLeaves(X: seq<seq<int>>, y: seq<int>, maxDepth: int, gain: Gain)
    requires Rectangular(X) && |X| == |y|
  {
    forall i, j :: 0 <= i < |X| && 0 <= j < |LeafGroup(X, y, 0, maxDepth, gain, i)| ==>
      LeafGroup(X, y, 0, maxDepth, gain, i)[j] == y[i]
  }

  /**
   * Fitting then predicting the training rows: each prediction is a most
   * frequent label among the training rows that share its leaf, and when
   * every leaf's rows agree on their label the predictions are exactly `y`.
   */
  lemma FitThenPredict(m: Model, X: seq<seq<int>>, y: seq<int>, gain: Gain)
    requires |X| == |y| && |X| > 0 && Rectangular(X)
    ensures Fit(m, X, y, gain).error.None?
    ensures Accepts(Fit(m, X, y, gain).model, X)
    ensures var p := Predict(Fit(m, X, y, gain).model, X);
      && p.Success? && |p.value| == |X|
      && forall i :: 0 <= i < |X| ==> IsMajority(p.value[i], LeafGroup(X, y, 0, m.maxDepth, gain, i))
    ensures PureLeaves(X, y, m.maxDepth, gain) ==> Predict(Fit(m, X, y, gain).model, X) == Success(y)
  {
    var model := Fit(m, X, y, gain).model;
    TrainingRows(X, y, m.maxDepth, gain);
    PredictTrainingRows(model, X, y, m.maxDepth, gain);
  }

  /** The training-row facts for every row of the tree built from depth 0. */
  lemma TrainingRows(X: seq<seq<int>>, y: seq<int>, maxDepth: int, gain: Gain)
    requires |X| == |y| && Rectangular(X)
    ensures forall i :: 0 <= i < |X| ==> Fits(X[i], BuildTree(X, y, 0, maxDepth, gain))
    ensures forall i :: 0 <= i < |X| ==> IsMajority(PredictRow(X[i], BuildTree(X, y, 0, maxDepth, gain)), LeafGroup(X, y, 0, maxDepth, gain, i))
    ensures PureLeaves(X, y, maxDepth, gain) ==> forall i :: 0 <= i < |X| ==> PredictRow(X[i], BuildTree(X, y, 0, maxDepth, gain)) == y[i]
  {
    var t := BuildTree(X, y, 0, maxDepth, gain);
    forall i | 0 <= i < |X|
      ensures Fits(X[i], t)
      ensures IsMajority(PredictRow(X[i], t), LeafGroup(X, y, 0, maxDepth, gain, i))
      ensures PureLeaves(X, y, maxDepth, gain) ==> PredictRow(X[i], t) == y[i]
    {
      PredictOnTrainingRow(X, y, 0, maxDepth, gain, i);
    }
  }

  /** Predicting with a model that stores the tree built from `X` and `y` carries the training-row facts over to `Predict`. */
  lemma PredictTrainingRows(model: Model, X: seq<seq<int>>, y: seq<int>, maxDepth: int, gain: Gain)
    requires |X| == |y| && Rectangular(X)
    requires model.tree == Some(BuildTree(X, y, 0, maxDepth, gain))
    requires forall i :: 0 <= i < |X| ==> Fits(X[i], BuildTree(X, y, 0, maxDepth, gain))
    requires forall i :: 0 <= i < |X| ==> IsMajority(PredictRow(X[i], BuildTree(X, y, 0, maxDepth, gain)), LeafGroup(X, y, 0, maxDepth, gain, i))
    requires PureLeaves(X, y, maxDepth, gain) ==> forall i :: 0 <= i < |X| ==> PredictRow(X[i], BuildTree(X, y, 0, maxDepth, gain)) == y[i]
    ensures Accepts(model, X)
    ensures var p := Predict(model, X);
      && p.Success? && |p.value| == |X|
      && forall i :: 0 <= i < |X| ==> IsMajority(p.value[i], LeafGroup(X, y, 0, maxDepth, gain, i))
    ensures PureLeaves(X, y, maxDepth, gain) ==> Predict(model, X) == Success(y)
  {
    var p := Predict(model, X);
    if PureLeaves(X, y, maxDepth, gain) {
      assert p.value == y;
    }
  }
}

=== FILE: decision_tree.dfy ===
/**
 * The categorical decision tree: the node type, the recursive builder and the
 * row predictor. A node is a tagged variant instead of the original's struct
 * whose label -1 marks "not a leaf".
 */
module DecisionTree {
  import opened Seqs
  import opened TreeUtil
  import opened Splitting

  datatype Node =
    | Leaf(target: int)
      /** `values` are the observed values of column `feature`; `branches[k]` holds the child for `values[k]`. */
    | Split(feature: nat, values: seq<int>, branches: seq<Branch<Node>>)

  /** One `ChildNode`: the column value leading to `child` (a tagged node here, the original's struct in `Sentinel`). */
  datatype Branch<+N> = Branch(value: int, child: N)

  /** Number of columns, read off the first row as the original does. */
  function Width(X: seq<seq<int>>): nat
  {
    if |X| == 0 then 0 else |X[0]|
  }

  /** Every row has the same number of columns. */
  predicate Rectangular(X: seq<seq<int>>)
  {
    forall i :: 0 <= i < |X| ==> |X[i]| == Width(X)
  }

  /** What `buildTree` does at one node: stop with a label, or split on a column. */
  datatype Step = MakeLeaf(target: int) | SplitOn(feature: nat)

  /**
   * The three base cases of `buildTree` and its split decision: a pure label
   * set gives its label; depth exhausted, no columns left or no informative
   * column gives the majority label; otherwise split on `bestSplit`'s column.
   */
  function Decide(X: seq<seq<int>>, y: seq<int>, depth: int, maxDepth: int, gain: Gain): (s: Step)
    requires Rectangular(X) && |X| == |y|
    ensures |y| > 0 && (forall j :: 0 <= j < |y| ==> y[j] == y[0]) ==> s == MakeLeaf(y[0])
    ensures depth >= maxDepth || Width(X) == 0 ==> s.MakeLeaf?
    ensures s.MakeLeaf? && |y| > 0 ==> IsMajority(s.target, y)
    ensures s.MakeLeaf? && |y| == 0 ==> s.target == -1
    ensures s.SplitOn? ==> depth < maxDepth && |y| > 0 && s.feature < Width(X) && gain(X, y, s.feature) > 0.0
    ensures s.SplitOn? ==> exists j :: 0 <= j < |y| && y[j] != y[0]
    ensures s.SplitOn? ==> forall j :: 0 <= j < Width(X) ==> gain(X, y, j) <= gain(X, y, s.feature)
    ensures s.SplitOn? ==> forall j :: 0 <= j < s.feature ==> gain(X, y, j) < gain(X, y, s.feature)
    ensures (&& |y| > 0 && depth < maxDepth
             && (exists j :: 0 <= j < |y| && y[j] != y[0])
             && (exists j :: 0 <= j < Width(X) && gain(X, y, j) > 0.0)) ==> s.SplitOn?
  {
    var labels := Distinct(y);
    DistinctSingleton(y);
    if |labels| == 1 then MakeLeaf(labels[0])
    else if depth >= maxDepth || (|X| > 0 && |X[0]| == 0) then MakeLeaf(MajorityLabel(y))
    else
      var f := BestSplit(X, y, gain);
      if f == -1 then MakeLeaf(MajorityLabel(y)) else SplitOn(f)
  }

  /** The rows whose column `f` holds `v`, with column `f` deleted. */
  function RowsWith(X: seq<seq<int>>, f: nat, v: int): (r: seq<seq<int>>)
    requires HasColumn(X, f)
    ensures |r| == |MatchingRows(X, f, v)|
    ensures Rectangular(X) && f < Width(X) ==> Rectangular(r) && (|r| > 0 ==> Width(r) == Width(X) - 1)
  {
    SubsetRemoveColumn(X, MatchingRows(X, f, v), f)
  }

  /** The labels of the rows whose column `f` holds `v`. */
  function LabelsWith(X: seq<seq<int>>, y: seq<int>, f: nat, v: int): (r: seq<int>)
    requires HasColumn(X, f) && |X| == |y|
    ensures |r| == |MatchingRows(X, f, v)|
  {
    SubsetInts(y, MatchingRows(X, f, v))
  }

  /**
   * `buildTree`: a leaf when `Decide` stops, otherwise a split on the chosen
   * column with one child per distinct value of that column, each built from
   * the rows holding that value, with the column deleted, one level deeper.
   */
  function BuildTree(X: seq<seq<int>>, y: seq<int>, depth: int, maxDepth: int, gain: Gain): Node
    requires Rectangular(X) && |X| == |y|
    decreases Width(X), 1
  {
    match Decide(X, y, depth, maxDepth, gain)
    case MakeLeaf(l) => Leaf(l)
    case SplitOn(f) =>
      var vals := Distinct(GetColumn(X, f));
      Split(f, vals, BuildBranches(X, y, f, vals, depth + 1, maxDepth, gain))
  }

  /** The loop over the chosen column's values: one branch per value, in order, each grown at `depth`. */
  function BuildBranches(X: seq<seq<int>>, y: seq<int>, f: nat, vals: seq<int>, depth: int, maxDepth: int, gain: Gain): seq<Branch<Node>>
    requires Rectangular(X) && |X| == |y| && f < Width(X)
    decreases Width(X), 0, |vals|
  {
    if |vals| == 0 then []
    else [Branch(vals[0], Subtree(X, y, f, vals[0], depth, maxDepth, gain))] + BuildBranches(X, y, f, vals[1..], depth, maxDepth, gain)
  }

  /** The subtree grown at `depth` from the rows whose column `f` holds `v`, with that column deleted. */
  function Subtree(X: seq<seq<int>>, y: seq<int>, f: nat, v: int, depth: int, maxDepth: int, gain: Gain): Node
    requires Rectangular(X) && |X| == |y| && f < Width(X)
    decreases Width(X), 0, 0
  {
    BuildTree(RowsWith(X, f, v), LabelsWith(X, y, f, v), depth, maxDepth, gain)
  }

  /** The child search of `predictRow`: the first branch for `v`, or -1. */
  function FindBranch<N>(bs: seq<Branch<N>>, v: int): (k: int)
    ensures -1 <= k < |bs|
    ensures k >= 0 ==> bs[k].value == v && forall j :: 0 <= j < k ==> bs[j].value != v
    ensures k == -1 ==> forall j :: 0 <= j < |bs| ==> bs[j].value != v
  {
    if |bs| == 0 then -1
    else if bs[0].value == v then 0
    else
      var k := FindBranch(bs[1..], v);
      if k == -1 then -1 else k + 1
  }

  /** `getAllLabels`: the labels of all leaves under `n`, left to right. */
  function AllLabels(n: Node): seq<int>
    decreases n, 1
  {
    match n
    case Leaf(l) => [l]
    case Split(_, _, _) => BranchLabels(n, 0)
  }

  /** The leaf labels under the branches of split `n` from branch `k` on. */
  function BranchLabels(n: Node, k: nat): seq<int>
    requires n.Split?
    decreases n, 0, |n.branches| - k
  {
    if k >= |n.branches| then [] else AllLabels(n.branches[k].child) + BranchLabels(n, k + 1)
  }

  /**
   * The row has every column `predictRow` reads on its way down: the Go code
   * indexes the row with the split's feature and panics when it is too short.
   */
  predicate Fits(row: seq<int>, n: Node)
    decreases n
  {
    match n
    case Leaf(_) => true
    case Split(f, _, bs) =>
      && f < |row|
      && var k := FindBranch(bs, row[f]);
         k >= 0 ==> Fits(RemoveIndex(row, f), bs[k].child)
  }

  /** Like `Fits`, and every split on the way down has a child for the row's value: the fallback is never taken. */
  predicate Follows(row: seq<int>, n: Node)
    decreases n
  {
    match n
    case Leaf(_) => true
    case Split(f, _, bs) =>
      && f < |row|
      && var k := FindBranch(bs, row[f]);
         k >= 0 && Follows(RemoveIndex(row, f), bs[k].child)
  }

  /**
   * `predictRow`: a leaf gives its label; a split descends into the child for
   * the row's value with that column deleted, and when no child has the value
   * it votes among all leaf labels below the split.
   */
  function PredictRow(row: seq<int>, n: Node): int
    requires Fits(row, n)
    decreases n
  {
    match n
    case Leaf(l) => l
    case Split(f, _, bs) =>
      var k := FindBranch(bs, row[f]);
      if k < 0 then MajorityLabel(AllLabels(n))
      else PredictRow(RemoveIndex(row, f), bs[k].child)
  }

  /**
   * The shape a tree built from `w`-column rows has: each split's feature is a
   * column of its level, its values are distinct and non-empty, branch `k`
   * carries value `k`, and its children are shaped for one column fewer.
   */
  ghost predicate WellFormed(n: Node, w: nat)
    decreases n
  {
    match n
    case Leaf(_) => true
    case Split(f, vals, bs) =>
      && f < w
      && |vals| > 0
      && NoDup(vals)
      && |bs| == |vals|
      && forall k :: 0 <= k < |bs| ==> bs[k].value == vals[k] && WellFormed(bs[k].child, w - 1)
  }

  /** Every root-to-leaf path crosses at most `h` splits. */
  ghost predicate HeightAtMost(n: Node, h: int)
    decreases n
  {
    match n
    case Leaf(_) => true
    case Split(_, _, bs) => h >= 1 && forall k :: 0 <= k < |bs| ==> HeightAtMost(bs[k].child, h - 1)
  }
}

=== FILE: label_encoder.dfy ===
/**
 * The label encoder: numbers the distinct string labels 0, 1, 2, ... in the
 * order they are first seen, and translates between labels and numbers in
 * both directions.
 */
module LabelEncoder {
  import opened Seqs
  import opened Results

  /** The known classes and the two lookup tables built from them. */
  datatype Encoder = Encoder(classes: seq<string>, classToIndex: map<string, int>, indexToClass: map<int, string>)

  datatype EncoderError =
    | NotFitted
    | UnknownLabel(name: string)
    | UnknownIndex(index: int)

  /** The tables are the two directions of the numbering of `classes` by position. */
  ghost predicate Valid(e: Encoder)
  {
    && NoDup(e.classes)
    && NumbersClasses(e.classes, e.classToIndex)
    && NamesPositions(e.classes, e.indexToClass)
  }

  /** `m` maps exactly the classes, each to its position. */
  ghost predicate NumbersClasses(classes: seq<string>, m: map<string, int>)
  {
    && (forall c :: c in m <==> c in classes)
    && (forall i :: 0 <= i < |classes| ==> classes[i] in m && m[classes[i]] == i)
  }

  /** `m` maps exactly the positions of `classes`, each to its class. */
  ghost predicate NamesPositions(classes: seq<string>, m: map<int, string>)
  {
    && (forall i :: i in m <==> 0 <= i < |classes|)
    && (forall i :: 0 <= i < |classes| ==> m[i] == classes[i])
  }

  /** `NewLabelEncoder`: no classes, empty tables. */
  function NewEncoder(): (e: Encoder)
    ensures Valid(e) && |e.classes| == 0
  {
    Encoder([], map[], map[])
  }

  /**
   * `Fit`: the classes are the distinct labels of `y` in first-seen order,
   * and the tables number them by position. Whatever the encoder held
   * before is discarded, so the result does not depend on it.
   */
  method Fit(y: seq<string>) returns (e: Encoder)
    ensures e.classes == Distinct(y)
    ensures Valid(e)
  {
    var classes := Distinct(y);
    var toIndex := IndexTable(classes);
    var toClass := ClassTable(classes);
    e := Encoder(classes, toIndex, toClass);
  }

  /** The class-to-number half of the loop in `Fit`: each class maps to its position. */
  method IndexTable(classes: seq<string>) returns (m: map<string, int>)
    requires NoDup(classes)
    ensures forall c :: c in m <==> c in classes
    ensures forall i :: 0 <= i < |classes| ==> classes[i] in m && m[classes[i]] == i
  {
    m := map[];
    var idx := 0;
    while idx < |classes|
      invariant 0 <= idx <= |classes|
      invariant forall c :: c in m ==> 0 <= m[c] < idx && classes[m[c]] == c
      invariant forall i :: 0 <= i < idx ==> classes[i] in m && m[classes[i]] == i
    {
      m := m[classes[idx] := idx];
      idx := idx + 1;
    }
  }

  /** The number-to-class half of the loop in `Fit`: each position maps to its class. */
  method ClassTable(classes: seq<string>) returns (m: map<int, string>)
    ensures forall i :: i in m <==> 0 <= i < |classes|
    ensures forall i :: 0 <= i < |classes| ==> m[i] == classes[i]
  {
    m := map[];
    var idx := 0;
    while idx < |classes|
      invariant 0 <= idx <= |classes|
      invariant forall i :: i in m <==> 0 <= i < idx
      invariant forall i :: 0 <= i < idx ==> m[i] == classes[i]
    {
      m := m[idx := classes[idx]];
      idx := idx + 1;
    }
  }

  /** Position of the first entry of `xs` that is not a key of `m`, or `|xs|` when all are. */
  function FirstMissing<K, V>(m: map<K, V>, xs: seq<K>): (k: nat)
    ensures k <= |xs|
    ensures forall j :: 0 <= j < k ==> xs[j] in m
    ensures k < |xs| ==> xs[k] !in m
  {
    if |xs| == 0 || xs[0] !in m then 0 else 1 + FirstMissing(m, xs[1..])
  }

  /** The lookup loop of `Transform`: stops at the first label that has no number. */
  function LookupLabels(m: map<string, int>, y: seq<string>): (r: Result<seq<int>, EncoderError>)
    ensures r.Success? <==> FirstMissing(m, y) == |y|
    ensures r.Success? ==> |r.value| == |y| && forall i :: 0 <= i < |y| ==> y[i] in m && r.value[i] == m[y[i]]
    ensures r.Failure? ==> r.error == UnknownLabel(y[FirstMissing(m, y)])
  {
    if |y| == 0 then Success([])
    else if y[0] !in m then Failure(UnknownLabel(y[0]))
    else
      match LookupLabels(m, y[1..])
      case Success(rest) => Success([m[y[0]]] + rest)
      case Failure(err) => Failure(err)
  }

  /** The lookup loop of `InverseTransform`: stops at the first number that has no label. */
  function LookupIndices(m: map<int, string>, indices: seq<int>): (r: Result<seq<string>, EncoderError>)
    ensures r.Success? <==> FirstMissing(m, indices) == |indices|
    ensures r.Success? ==> |r.value| == |indices| && forall i :: 0 <= i < |indices| ==> indices[i] in m && r.value[i] == m[indices[i]]
    ensures r.Failure? ==> r.error == UnknownIndex(indices[FirstMissing(m, indices)])
  {
    if |indices| == 0 then Success([])
    else if indices[0] !in m then Failure(UnknownIndex(indices[0]))
    else
      match LookupIndices(m, indices[1..])
      case Success(rest) => Success([m[indices[0]]] + rest)
      case Failure(err) => Failure(err)
  }

  /**
   * `Transform`: an encoder with no classes refuses every input (even an
   * empty one); otherwise every label is replaced by its number, and the
   * first label that is not a class is reported.
   */
  function Transform(e: Encoder, y: seq<string>): (r: Result<seq<int>, EncoderError>)
    ensures |e.classes| == 0 ==> r == Failure(NotFitted)
    ensures r.Success? <==> |e.classes| > 0 && forall i :: 0 <= i < |y| ==> y[i] in e.classToIndex
    ensures r.Success? ==> |r.value| == |y| && forall i :: 0 <= i < |y| ==> r.value[i] == e.classToIndex[y[i]]
    ensures |e.classes| > 0 && r.Failure? ==>
      exists k :: 0 <= k < |y| && r.error == UnknownLabel(y[k]) && y[k] !in e.classToIndex
                  && forall j :: 0 <= j < k ==> y[j] in e.classToIndex
  {
    if |e.classes| == 0 then Failure(NotFitted)
    else
      LookupLabels(e.classToIndex, y)
  }

  /**
   * `InverseTransform`: every number is replaced by its class, and the first
   * number that is not a position of a class is reported. Unlike `Transform`
   * there is no check for an unfitted encoder, so an empty input succeeds.
   */
  function InverseTransform(e: Encoder, indices: seq<int>): (r: Result<seq<string>, EncoderError>)
    ensures r.Success? <==> forall i :: 0 <= i < |indices| ==> indices[i] in e.indexToClass
    ensures r.Success? ==> |r.value| == |indices| && forall i :: 0 <= i < |indices| ==> r.value[i] == e.indexToClass[indices[i]]
    ensures r.Failure? ==>
      exists k :: 0 <= k < |indices| && r.error == UnknownIndex(indices[k]) && indices[k] !in e.indexToClass
                  && forall j :: 0 <= j < k ==> indices[j] in e.indexToClass
  {
    LookupIndices(e.indexToClass, indices)
  }

  /** Labels that are all classes of a fitted encoder survive encoding then decoding unchanged. */
  lemma DecodeEncoded(e: Encoder, y: seq<string>)
    requires Valid(e) && |e.classes| > 0
    requires forall i :: 0 <= i < |y| ==> y[i] in e.classes
    ensures Transform(e, y).Success?
    ensures InverseTransform(e, Transform(e, y).value) == Success(y)
  {
    var codes := Transform(e, y).value;
    forall i | 0 <= i < |y|
      ensures codes[i] in e.indexToClass && e.indexToClass[codes[i]] == y[i]
    {
      var k :| 0 <= k < |e.classes| && e.classes[k] == y[i];
      assert codes[i] == k;
    }
    var back := InverseTransform(e, codes);
    assert back.Success?;
    assert back.value == y;
  }

  /** Numbers that are all positions of classes of a fitted encoder survive decoding then encoding unchanged. */
  lemma EncodeDecoded(e: Encoder, indices: seq<int>)
    requires Valid(e) && |e.classes| > 0
    requires forall i :: 0 <= i < |indices| ==> 0 <= indices[i] < |e.classes|
    ensures InverseTransform(e, indices).Success?
    ensures Transform(e, InverseTransform(e, indices).value) == Success(indices)
  {
    var labels := InverseTransform(e, indices).value;
    forall i | 0 <= i < |indices|
      ensures labels[i] in e.classToIndex && e.classToIndex[labels[i]] == indices[i]
    {
      assert labels[i] == e.classes[indices[i]];
    }
    var back := Transform(e, labels);
    assert back.Success?;
    assert back.value == indices;
  }

  /** A fitted encoder numbers every label it accepts with the position of that label's class, so never with a negative number. */
  lemma TransformPositions(e: Encoder, y: seq<string>)
    requires Valid(e) && Transform(e, y).Success?
    ensures forall i :: 0 <= i < |y| ==> 0 <= Transform(e, y).value[i] < |e.classes| && e.classes[Transform(e, y).value[i]] == y[i]
  {
    var codes := Transform(e, y).value;
    forall i | 0 <= i < |y|
      ensures 0 <= codes[i] < |e.classes| && e.classes[codes[i]] == y[i]
    {
      assert y[i] in e.classes;
      var k :| 0 <= k < |e.classes| && e.classes[k] == y[i];
      assert codes[i] == k;
    }
  }

  /**
   * `FitTransform`: fit on `y`, then encode `y` itself. Empty input leaves no
   * classes and is refused; otherwise every label gets the position of its
   * class, the first label gets 0, and a label first seen later gets a larger
   * number.
   */
  method FitTransform(y: seq<string>) returns (e: Encoder, r: Result<seq<int>, EncoderError>)
    ensures e.classes == Distinct(y) && Valid(e)
    ensures |y| == 0 ==> r == Failure(NotFitted)
    ensures |y| > 0 ==> r.Success? && |r.value| == |y|
    ensures |y| > 0 ==> forall i :: 0 <= i < |y| ==> 0 <= r.value[i] < |e.classes| && e.classes[r.value[i]] == y[i]
    ensures |y| > 0 ==> r.value[0] == 0
  {
    e := Fit(y);
    r := Transform(e, y);
    if |y| > 0 {
      forall i | 0 <= i < |y|
        ensures y[i] in e.classToIndex
      {
        assert y[i] in e.classes;
      }
      assert r.Success?;
      TransformPositions(e, y);
    }
  }
}

=== FILE: metrics.dfy ===
/**
 * Classification accuracy: the fraction of positions where the predicted
 * label equals the true one. The original computes it in `float64`; here the
 * ratio is an exact `real`.
 */
module Metrics {

  /** The positions where the two label sequences agree. */
  ghost function Agreements<T>(y: seq<T>, yPredict: seq<T>): set<nat>
    requires |y| == |yPredict|
  {
    set i: nat | i < |y| && y[i] == yPredict[i]
  }

  /** The counting loop: how many of the first `|y|` positions agree, scanned left to right. */
  function MatchCount<T(==)>(y: seq<T>, yPredict: seq<T>): (n: nat)
    requires |y| == |yPredict|
    ensures n <= |y|
    decreases |y|
  {
    if |y| == 0 then 0
    else
      var k := |y| - 1;
      MatchCount(y[..k], yPredict[..k]) + (if y[k] == yPredict[k] then 1 else 0)
  }

  /** The counting loop counts exactly the agreeing positions. */
  lemma {:induction false} MatchCountIsAgreements<T>(y: seq<T>, yPredict: seq<T>)
    requires |y| == |yPredict|
    ensures MatchCount(y, yPredict) == |Agreements(y, yPredict)|
    decreases |y|
  {
    if |y| > 0 {
      var k := |y| - 1;
      MatchCountIsAgreements(y[..k], yPredict[..k]);
      var pre := Agreements(y[..k], yPredict[..k]);
      var all := Agreements(y, yPredict);
      if y[k] == yPredict[k] {
        assert all == pre + {k};
        assert k !in pre;
      } else {
        assert all == pre;
      }
    }
  }

  /** Every position agrees exactly when the count reaches the length. */
  lemma {:induction false} MatchCountFull<T>(y: seq<T>, yPredict: seq<T>)
    requires |y| == |yPredict|
    ensures MatchCount(y, yPredict) == |y| <==> y == yPredict
    decreases |y|
  {
    if |y| > 0 {
      var k := |y| - 1;
      MatchCountFull(y[..k], yPredict[..k]);
      assert y == y[..k] + [y[k]];
      assert yPredict == yPredict[..k] + [yPredict[k]];
    }
  }

  /** No position agrees exactly when the count is zero. */
  lemma {:induction false} MatchCountZero<T>(y: seq<T>, yPredict: seq<T>)
    requires |y| == |yPredict|
    ensures MatchCount(y, yPredict) == 0 <==> forall i :: 0 <= i < |y| ==> y[i] != yPredict[i]
    decreases |y|
  {
    if |y| > 0 {
      var k := |y| - 1;
      MatchCountZero(y[..k], yPredict[..k]);
      assert forall i :: 0 <= i < k ==> y[..k][i] == y[i] && yPredict[..k][i] == yPredict[i];
    }
  }

  /**
   * `AccuracyScore`: 0 when there are no labels or the lengths differ,
   * otherwise the share of agreeing positions. It is 1 exactly when the
   * predictions are the (non-empty) truth, and 0 on equal non-empty lengths
   * exactly when no position agrees.
   */
  function AccuracyScore<T(==)>(y: seq<T>, yPredict: seq<T>): (r: real)
    ensures 0.0 <= r <= 1.0
    ensures |y| == 0 || |y| != |yPredict| ==> r == 0.0
    ensures |y| > 0 && |y| == |yPredict| ==> r * (|y| as real) == |Agreements(y, yPredict)| as real
    ensures r == 1.0 <==> |y| > 0 && y == yPredict
    ensures |y| > 0 && |y| == |yPredict| ==> (r == 0.0 <==> forall i :: 0 <= i < |y| ==> y[i] != yPredict[i])
  {
    if |y| == 0 || |y| != |yPredict| then 0.0
    else
      MatchCountIsAgreements(y, yPredict);
      MatchCountFull(y, yPredict);
      MatchCountZero(y, yPredict);
      DivBounds(MatchCount(y, yPredict) as real, |y| as real);
      (MatchCount(y, yPredict) as real) / (|y| as real)
  }

  /** A share of a positive total is between 0 and 1, recovers the part when multiplied back, and is 0 or 1 exactly at the ends. */
  lemma DivBounds(a: real, b: real)
    requires 0.0 < b && 0.0 <= a <= b
    ensures 0.0 <= a / b <= 1.0
    ensures a / b * b == a
    ensures a / b == 1.0 <==> a == b
    ensures a / b == 0.0 <==> a == 0.0
  {
    var r := a / b;
    MulSign(r, b);
    MulSign(r - 1.0, b);
  }

  /** Multiplying by a positive number keeps the sign. */
  lemma MulSign(x: real, b: real)
    ensures b > 0.0 ==> (x * b > 0.0 <==> x > 0.0) && (x * b == 0.0 <==> x == 0.0)
  {
  }

  /** The counting loop gives the same count whichever sequence is the truth. */
  lemma {:induction false} MatchCountSymmetric<T>(y: seq<T>, yPredict: seq<T>)
    requires |y| == |yPredict|
    ensures MatchCount(y, yPredict) == MatchCount(yPredict, y)
    decreases |y|
  {
    if |y| > 0 {
      var k := |y| - 1;
      MatchCountSymmetric(y[..k], yPredict[..k]);
    }
  }

  /** Accuracy does not depend on which argument is the truth. */
  lemma AccuracySymmetric<T>(y: seq<T>, yPredict: seq<T>)
    ensures AccuracyScore(y, yPredict) == AccuracyScore(yPredict, y)
  {
    if |y| > 0 && |y| == |yPredict| {
      MatchCountSymmetric(y, yPredict);
    }
  }
}

=== FILE: results.dfy ===
/** Failure-carrying values used in place of Go's `(value, error)` returns and nil pointers. */
module Results {

  /** An optional value: Go's nil `*Node` is `None`. */
  datatype Option<+T> = None | Some(value: T)

  /** The outcome of an operation that may fail with an error of type `E`. */
  datatype Result<+T, +E> = Success(value: T) | Failure(error: E)
}

=== FILE: sentinel.dfy ===
/**
 * The original stores both kinds of node in one struct and marks a split by
 * `Label == -1`. This module models that encoding and how `predictRow` and
 * `getAllLabels` read it, shows inputs on which it breaks (training labels
 * that are themselves -1), and proves it agrees with the tagged `Node`
 * whenever no leaf carries -1 (in particular for labels numbered by the
 * label encoder, which are never negative).
 */
module Sentinel {
  import opened Results
  import opened TreeUtil
  import opened Splitting
  import opened DecisionTree
  import opened TreeProofs
  import LabelEncoder

  /** The original `Node`: `leafLabel` is `Label`, -1 meaning "not a leaf"; each child is a `Branch` to a `RawNode`. */
  datatype RawNode = RawNode(leafLabel: int, featureIndex: int, featureValues: seq<int>, children: seq<Branch<RawNode>>)

  /** The run-time failure of indexing a row out of its bounds. */
  datatype Panic = IndexOutOfRange

  /** The node the original builds for a tagged node: a leaf gets `FeatureIndex` -1, a split gets `Label` -1. */
  function Encode(n: Node): RawNode
    decreases n
  {
    match n
    case Leaf(l) => RawNode(l, -1, [], [])
    case Split(f, vals, bs) =>
      RawNode(-1, f, vals, seq(|bs|, k requires 0 <= k < |bs| => Branch(bs[k].value, Encode(bs[k].child))))
  }

  /** `getAllLabels` as written: a node whose label is not -1 is a leaf, anything else is searched through its children. */
  function RawAllLabels(r: RawNode): seq<int>
    decreases r, 1
  {
    if r.leafLabel != -1 then [r.leafLabel] else RawChildLabels(r, 0)
  }

  function RawChildLabels(r: RawNode, k: nat): seq<int>
    decreases r, 0, |r.children| - k
  {
    if k >= |r.children| then [] else RawAllLabels(r.children[k].child) + RawChildLabels(r, k + 1)
  }

  /**
   * `predictRow` as written: a node whose label is not -1 answers with it;
   * otherwise the row is indexed at `FeatureIndex`, which fails when that is
   * outside the row.
   */
  function RawPredictRow(row: seq<int>, r: RawNode): Result<int, Panic>
    decreases r
  {
    if r.leafLabel != -1 then Success(r.leafLabel)
    else if !(0 <= r.featureIndex < |row|) then Failure(IndexOutOfRange)
    else
      var k := FindBranch(r.children, row[r.featureIndex]);
      if k < 0 then Success(MajorityLabel(RawAllLabels(r)))
      else RawPredictRow(RemoveIndex(row, r.featureIndex), r.children[k].child)
  }

  /**
   * The discrepancy: whenever every training label is -1, the tree is a leaf
   * labelled -1, which the tagged model predicts for every row; the
   * original's encoding of that leaf reads as a split on column -1, so
   * predicting any row fails and the leaf's label is lost to `getAllLabels`.
   */
  lemma SentinelLeafMisread(X: seq<seq<int>>, y: seq<int>, maxDepth: int, gain: Gain, row: seq<int>)
    requires Rectangular(X) && |X| == |y| && |y| > 0
    requires forall i :: 0 <= i < |y| ==> y[i] == -1
    ensures BuildTree(X, y, 0, maxDepth, gain) == Leaf(-1)
    ensures PredictRow(row, BuildTree(X, y, 0, maxDepth, gain)) == -1
    ensures AllLabels(BuildTree(X, y, 0, maxDepth, gain)) == [-1]
    ensures RawPredictRow(row, Encode(BuildTree(X, y, 0, maxDepth, gain))) == Failure(IndexOutOfRange)
    ensures RawAllLabels(Encode(BuildTree(X, y, 0, maxDepth, gain))) == []
  {
  }

  /** The smallest instance: one row with one column and the single label -1. */
  lemma SentinelExample(maxDepth: int, gain: Gain)
    ensures BuildTree([[0]], [-1], 0, maxDepth, gain) == Leaf(-1)
    ensures RawPredictRow([0], Encode(BuildTree([[0]], [-1], 0, maxDepth, gain))) == Failure(IndexOutOfRange)
  {
    SentinelLeafMisread([[0]], [-1], maxDepth, gain, [0]);
  }

  /** When no leaf carries -1, the original's `getAllLabels` reads the encoding as the tagged tree. */
  lemma {:induction false} RawAllLabelsAgree(n: Node)
    requires -1 !in AllLabels(n)
    ensures RawAllLabels(Encode(n)) == AllLabels(n)
    decreases n, 1
  {
    if n.Split? {
      RawChildLabelsAgree(n, 0);
    }
  }

  lemma {:induction false} RawChildLabelsAgree(n: Node, k: nat)
    requires n.Split? && -1 !in AllLabels(n)
    ensures RawChildLabels(Encode(n), k) == BranchLabels(n, k)
    decreases n, 0, |n.branches| - k
  {
    if k < |n.branches| {
      BranchLabelsContain(n, 0, k);
      RawAllLabelsAgree(n.branches[k].child);
      RawChildLabelsAgree(n, k + 1);
    }
  }

  /**
   * When no leaf carries -1, predicting with the original's encoding gives
   * the tagged model's answer and never fails on a row the tree accepts.
   */
  lemma {:induction false} EncodingAgrees(row: seq<int>, n: Node)
    requires Fits(row, n) && -1 !in AllLabels(n)
    ensures RawPredictRow(row, Encode(n)) == Success(PredictRow(row, n))
    decreases n
  {
    match n
    case Leaf(_) =>
    case Split(f, vals, bs) =>
      var r := Encode(n);
      assert forall j :: 0 <= j < |bs| ==> r.children[j].value == bs[j].value;
      var k := FindBranch(bs, row[f]);
      assert FindBranch(r.children, row[f]) == k;
      if k < 0 {
        RawAllLabelsAgree(n);
      } else {
        BranchLabelsContain(n, 0, k);
        EncodingAgrees(RemoveIndex(row, f), bs[k].child);
      }
  }

  /**
   * The corrected reading covers every tree trained on labels other than -1
   * (such as the label encoder's numbers): the original's encoding then
   * predicts exactly what the tagged model predicts.
   */
  lemma TrainedWithoutSentinel(X: seq<seq<int>>, y: seq<int>, maxDepth: int, gain: Gain, row: seq<int>)
    requires Rectangular(X) && |X| == |y| && |y| > 0
    requires forall i :: 0 <= i < |y| ==> y[i] != -1
    requires Fits(row, BuildTree(X, y, 0, maxDepth, gain))
    ensures RawPredictRow(row, Encode(BuildTree(X, y, 0, maxDepth, gain))) == Success(PredictRow(row, BuildTree(X, y, 0, maxDepth, gain)))
  {
    BuildTreeLabels(X, y, 0, maxDepth, gain);
    EncodingAgrees(row, BuildTree(X, y, 0, maxDepth, gain));
  }

  /**
   * Labels numbered by a fitted label encoder are positions, never -1, so a
   * tree trained on them is read correctly by the original's encoding.
   */
  lemma EncodedLabelsWithoutSentinel(e: LabelEncoder.Encoder, labels: seq<string>, X: seq<seq<int>>, maxDepth: int, gain: Gain, row: seq<int>)
    requires LabelEncoder.Valid(e) && LabelEncoder.Transform(e, labels).Success?
    requires Rectangular(X) && |X| == |labels| && |labels| > 0
    requires Fits(row, BuildTree(X, LabelEncoder.Transform(e, labels).value, 0, maxDepth, gain))
    ensures RawPredictRow(row, Encode(BuildTree(X, LabelEncoder.Transform(e, labels).value, 0, maxDepth, gain)))
         == Success(PredictRow(row, BuildTree(X, LabelEncoder.Transform(e, labels).value, 0, maxDepth, gain)))
  {
    var codes := LabelEncoder.Transform(e, labels).value;
    LabelEncoder.TransformPositions(e, labels);
    TrainedWithoutSentinel(X, codes, maxDepth, gain, row);
  }
}

=== FILE: seqs.dfy ===
/** Generic facts and functions over sequences shared by the tree, the encoder and the metrics. */
module Seqs {

  /** Number of occurrences of `x` in `s`. */
  function Count<T(==)>(s: seq<T>, x: T): nat
  {
    multiset(s)[x]
  }

  /** No element occurs twice. */
  predicate NoDup<T(==)>(s: seq<T>)
  {
    forall i, j :: 0 <= i < j < |s| ==> s[i] != s[j]
  }

  /** Prepending an element adds one occurrence of it and none of anything else. */
  lemma CountCons<T>(c: T, t: seq<T>, x: T)
    ensures Count([c] + t, x) == (if c == x then 1 else 0) + Count(t, x)
  {
    assert multiset([c] + t) == multiset{c} + multiset(t);
  }

  /** Position of the first occurrence of `x` in `s`. */
  function FirstIndex<T(==)>(s: seq<T>, x: T): (k: nat)
    requires x in s
    ensures k < |s| && s[k] == x
    ensures forall j :: 0 <= j < k ==> s[j] != x
  {
    if s[0] == x then 0 else 1 + FirstIndex(s[1..], x)
  }

  /** Appending an element leaves the first occurrence of every earlier element where it was. */
  lemma {:induction false} FirstIndexSnoc<T>(s: seq<T>, c: T, x: T)
    requires x in s
    ensures FirstIndex(s + [c], x) == FirstIndex(s, x)
  {
    if s[0] != x {
      assert (s + [c])[1..] == s[1..] + [c];
      FirstIndexSnoc(s[1..], c, x);
    }
  }

  /**
   * The distinct elements of `s`, each once, in the order of their first
   * occurrence in `s`.
   */
  function Distinct<T(==)>(s: seq<T>): (r: seq<T>)
    ensures NoDup(r)
    ensures forall i :: 0 <= i < |r| ==> r[i] in s
    ensures forall i :: 0 <= i < |s| ==> s[i] in r
    ensures |s| > 0 ==> |r| > 0 && r[0] == s[0]
    decreases |s|
  {
    if |s| == 0 then []
    else
      var init := s[..|s| - 1];
      var last := s[|s| - 1];
      assert s == init + [last];
      var rest := Distinct(init);
      if last in rest then rest else rest + [last]
  }

  /** The elements of `Distinct(s)` come in the order of their first occurrence in `s`. */
  lemma {:induction false} DistinctFirstSeenOrder<T>(s: seq<T>)
    ensures forall i, j :: 0 <= i < j < |Distinct(s)| ==> FirstIndex(s, Distinct(s)[i]) < FirstIndex(s, Distinct(s)[j])
    decreases |s|
  {
    if |s| > 0 {
      var init := s[..|s| - 1];
      var last := s[|s| - 1];
      assert s == init + [last];
      DistinctFirstSeenOrder(init);
      var rest := Distinct(init);
      var r := Distinct(s);
      if last !in rest {
        forall j | 0 <= j < |init|
          ensures s[j] != last
        {
          assert init[j] in rest;
        }
      }
      forall i, j | 0 <= i < j < |r|
        ensures FirstIndex(s, r[i]) < FirstIndex(s, r[j])
      {
        assert r[i] == rest[i];
        FirstIndexSnoc(init, last, rest[i]);
        if j < |rest| {
          assert r[j] == rest[j];
          FirstIndexSnoc(init, last, rest[j]);
        }
      }
    }
  }

  /** `Distinct(s)` has a single element exactly when `s` is non-empty and constant. */
  lemma DistinctSingleton<T>(s: seq<T>)
    ensures |Distinct(s)| == 1 <==> |s| > 0 && forall j :: 0 <= j < |s| ==> s[j] == s[0]
  {
    var r := Distinct(s);
    if |r| == 1 {
      forall j | 0 <= j < |s|
        ensures s[j] == s[0]
      {
        assert s[j] in r;
      }
    }
  }
}

=== FILE: tree_proofs.dfy ===
/**
 * Properties of the built tree: its shape, its depth bound, how a split
 * partitions the training rows, and what prediction does on training rows.
 */
module TreeProofs {
  import opened Seqs
  import opened TreeUtil
  import opened Splitting
  import opened DecisionTree

  /** A value observed in column `f` selects a non-empty, rectangular set of rows one column narrower. */
  lemma ChildRows(X: seq<seq<int>>, f: nat, v: int)
    requires Rectangular(X) && f < Width(X)
    requires v in GetColumn(X, f)
    ensures |MatchingRows(X, f, v)| > 0
    ensures Rectangular(RowsWith(X, f, v)) && Width(RowsWith(X, f, v)) == Width(X) - 1
  {
    assert v in multiset(GetColumn(X, f));
  }

  /** Branch `k` of the branch loop is the subtree for `vals[k]`. */
  lemma {:induction false} BuildBranchesAt(X: seq<seq<int>>, y: seq<int>, f: nat, vals: seq<int>, depth: int, maxDepth: int, gain: Gain)
    requires Rectangular(X) && |X| == |y| && f < Width(X)
    ensures |BuildBranches(X, y, f, vals, depth, maxDepth, gain)| == |vals|
    ensures forall k :: 0 <= k < |vals| ==>
      BuildBranches(X, y, f, vals, depth, maxDepth, gain)[k] == Branch(vals[k], Subtree(X, y, f, vals[k], depth, maxDepth, gain))
    decreases |vals|
  {
    if |vals| > 0 {
      BuildBranchesAt(X, y, f, vals[1..], depth, maxDepth, gain);
    }
  }

  /** One step of `buildTree` on a split: the node carries the chosen column, its distinct values, and one subtree per value. */
  lemma BuildTreeUnfold(X: seq<seq<int>>, y: seq<int>, depth: int, maxDepth: int, gain: Gain, f: nat)
    requires Rectangular(X) && |X| == |y|
    requires Decide(X, y, depth, maxDepth, gain) == SplitOn(f)
    ensures f < Width(X) && |X| > 0
    ensures var n := BuildTree(X, y, depth, maxDepth, gain);
      && n.Split? && n.feature == f && n.values == Distinct(GetColumn(X, f))
      && |n.branches| == |n.values|
      && forall k :: 0 <= k < |n.values| ==>
           n.branches[k] == Branch(n.values[k], Subtree(X, y, f, n.values[k], depth + 1, maxDepth, gain))
  {
    BuildBranchesAt(X, y, f, Distinct(GetColumn(X, f)), depth + 1, maxDepth, gain);
  }

  /** Depth budget left at `depth`: `maxDepth - depth`, or 0 once it is used up. */
  function Budget(depth: int, maxDepth: int): nat
  {
    if maxDepth - depth > 0 then maxDepth - depth else 0
  }

  /** The built tree has the split shape of trees over `Width(X)` columns. */
  lemma {:induction false} BuildTreeWellFormed(X: seq<seq<int>>, y: seq<int>, depth: int, maxDepth: int, gain: Gain)
    requires Rectangular(X) && |X| == |y|
    ensures WellFormed(BuildTree(X, y, depth, maxDepth, gain), Width(X))
    decreases Width(X), 1
  {
    match Decide(X, y, depth, maxDepth, gain)
    case MakeLeaf(_) =>
    case SplitOn(f) =>
      forall v | v in GetColumn(X, f)
        ensures WellFormed(Subtree(X, y, f, v, depth + 1, maxDepth, gain), Width(X) - 1)
      {
        SubtreeWellFormed(X, y, depth + 1, maxDepth, gain, f, v);
      }
      SplitStepWellFormed(X, y, depth, maxDepth, gain, f);
  }

  lemma {:induction false} SubtreeWellFormed(X: seq<seq<int>>, y: seq<int>, depth: int, maxDepth: int, gain: Gain, f: nat, v: int)
    requires Rectangular(X) && |X| == |y| && f < Width(X)
    requires v in GetColumn(X, f)
    ensures WellFormed(Subtree(X, y, f, v, depth, maxDepth, gain), Width(X) - 1)
    decreases Width(X), 0
  {
    ChildRows(X, f, v);
    BuildTreeWellFormed(RowsWith(X, f, v), LabelsWith(X, y, f, v), depth, maxDepth, gain);
  }

  lemma SplitStepWellFormed(X: seq<seq<int>>, y: seq<int>, depth: int, maxDepth: int, gain: Gain, f: nat)
    requires Rectangular(X) && |X| == |y|
    requires Decide(X, y, depth, maxDepth, gain) == SplitOn(f)
    requires forall v :: v in GetColumn(X, f) ==> WellFormed(Subtree(X, y, f, v, depth + 1, maxDepth, gain), Width(X) - 1)
    ensures WellFormed(BuildTree(X, y, depth, maxDepth, gain), Width(X))
  {
    BuildTreeUnfold(X, y, depth, maxDepth, gain, f);
    SplitNodeWellFormed(X, y, f, BuildTree(X, y, depth, maxDepth, gain), depth + 1, maxDepth, gain);
  }

  /** A split on column `f` whose branches are the subtrees of the column's distinct values is well formed when those subtrees are. */
  lemma SplitNodeWellFormed(X: seq<seq<int>>, y: seq<int>, f: nat, n: Node, depth: int, maxDepth: int, gain: Gain)
    requires Rectangular(X) && |X| == |y| && f < Width(X) && |X| > 0
    requires n.Split? && n.feature == f && n.values == Distinct(GetColumn(X, f)) && |n.branches| == |n.values|
    requires forall k :: 0 <= k < |n.values| ==> n.branches[k] == Branch(n.values[k], Subtree(X, y, f, n.values[k], depth, maxDepth, gain))
    requires forall v :: v in GetColumn(X, f) ==> WellFormed(Subtree(X, y, f, v, depth, maxDepth, gain), Width(X) - 1)
    ensures WellFormed(n, Width(X))
  {
    forall k | 0 <= k < |n.branches|
      ensures n.branches[k].value == n.values[k] && WellFormed(n.branches[k].child, Width(X) - 1)
    {
      assert n.values[k] in GetColumn(X, f);
    }
    assert |GetColumn(X, f)| > 0;
  }

  /** Every root-to-leaf path of the tree built at `depth` crosses at most `maxDepth - depth` splits (none when that is not positive). */
  lemma {:induction false} BuildTreeDepthBound(X: seq<seq<int>>, y: seq<int>, depth: int, maxDepth: int, gain: Gain)
    requires Rectangular(X) && |X| == |y|
    ensures HeightAtMost(BuildTree(X, y, depth, maxDepth, gain), Budget(depth, maxDepth))
    decreases Width(X), 1
  {
    match Decide(X, y, depth, maxDepth, gain)
    case MakeLeaf(_) =>
    case SplitOn(f) =>
      forall v | v in GetColumn(X, f)
        ensures HeightAtMost(Subtree(X, y, f, v, depth + 1, maxDepth, gain), Budget(depth + 1, maxDepth))
      {
        SubtreeDepthBound(X, y, depth + 1, maxDepth, gain, f, v);
      }
      SplitStepDepthBound(X, y, depth, maxDepth, gain, f);
  }

  lemma {:induction false} SubtreeDepthBound(X: seq<seq<int>>, y: seq<int>, depth: int, maxDepth: int, gain: Gain, f: nat, v: int)
    requires Rectangular(X) && |X| == |y| && f < Width(X)
    ensures HeightAtMost(Subtree(X, y, f, v, depth, maxDepth, gain), Budget(depth, maxDepth))
    decreases Width(X), 0
  {
    BuildTreeDepthBound(RowsWith(X, f, v), LabelsWith(X, y, f, v), depth, maxDepth, gain);
  }

  lemma SplitStepDepthBound(X: seq<seq<int>>, y: seq<int>, depth: int, maxDepth: int, gain: Gain, f: nat)
    requires Rectangular(X) && |X| == |y|
    requires Decide(X, y, depth, maxDepth, gain) == SplitOn(f)
    requires forall v :: v in GetColumn(X, f) ==> HeightAtMost(Subtree(X, y, f, v, depth + 1, maxDepth, gain), Budget(depth + 1, maxDepth))
    ensures HeightAtMost(BuildTree(X, y, depth, maxDepth, gain), Budget(depth, maxDepth))
  {
    BuildTreeUnfold(X, y, depth, maxDepth, gain, f);
    assert BuildTree(X, y, depth, maxDepth, gain).Split? && BuildTree(X, y, depth, maxDepth, gain).feature == f;
    assert Budget(depth, maxDepth) == Budget(depth + 1, maxDepth) + 1;
    SplitNodeHeight(X, y, f, BuildTree(X, y, depth, maxDepth, gain), depth + 1, maxDepth, gain, Budget(depth, maxDepth));
  }

  /** A split on column `f` whose branches are the subtrees of the column's distinct values is one higher than those subtrees. */
  lemma SplitNodeHeight(X: seq<seq<int>>, y: seq<int>, f: nat, n: Node, depth: int, maxDepth: int, gain: Gain, h: int)
    requires Rectangular(X) && |X| == |y| && f < Width(X) && h >= 1
    requires n.Split? && n.values == Distinct(GetColumn(X, f)) && |n.branches| == |n.values|
    requires forall k :: 0 <= k < |n.values| ==> n.branches[k] == Branch(n.values[k], Subtree(X, y, f, n.values[k], depth, maxDepth, gain))
    requires forall v :: v in GetColumn(X, f) ==> HeightAtMost(Subtree(X, y, f, v, depth, maxDepth, gain), h - 1)
    ensures HeightAtMost(n, h)
  {
    forall k | 0 <= k < |n.branches|
      ensures HeightAtMost(n.branches[k].child, h - 1)
    {
      assert n.values[k] in GetColumn(X, f);
    }
  }

  /** A tree shaped for `w` columns splits at most `w` times on any path: each split uses up a column. */
  lemma {:induction false} WellFormedHeight(n: Node, w: nat)
    requires WellFormed(n, w)
    ensures HeightAtMost(n, w)
    decreases n
  {
    match n
    case Leaf(_) =>
    case Split(_, _, bs) =>
      forall k | 0 <= k < |bs|
        ensures HeightAtMost(bs[k].child, w - 1)
      {
        WellFormedHeight(bs[k].child, w - 1);
      }
  }

  /** A row with at least the training width never makes `predictRow` index out of range. */
  lemma {:induction false} WellFormedFits(row: seq<int>, n: Node, w: nat)
    requires WellFormed(n, w) && |row| >= w
    ensures Fits(row, n)
    decreases n
  {
    match n
    case Leaf(_) =>
    case Split(f, _, bs) =>
      var k := FindBranch(bs, row[f]);
      if k >= 0 {
        WellFormedFits(RemoveIndex(row, f), bs[k].child, w - 1);
      }
  }

  /** The leaf labels under each branch are among the leaf labels of the split. */
  lemma {:induction false} BranchLabelsContain(n: Node, k: nat, j: nat)
    requires n.Split? && k <= j < |n.branches|
    ensures forall l :: l in AllLabels(n.branches[j].child) ==> l in BranchLabels(n, k)
    decreases j - k
  {
    if k < j {
      BranchLabelsContain(n, k + 1, j);
    }
  }

  /** A well-formed tree has at least one leaf label. */
  lemma {:induction false} AllLabelsNonEmpty(n: Node, w: nat)
    requires WellFormed(n, w)
    ensures |AllLabels(n)| > 0
    decreases n
  {
    match n
    case Leaf(_) =>
    case Split(_, _, bs) =>
      AllLabelsNonEmpty(bs[0].child, w - 1);
      BranchLabelsContain(n, 0, 0);
      assert AllLabels(bs[0].child)[0] in AllLabels(n);
  }

  /**
   * Prediction on a well-formed tree, fallback or not, returns a label some
   * leaf of the tree carries; when the fallback is taken it is a most
   * frequent leaf label of the split where the row's value was unseen.
   */
  lemma {:induction false} PredictRowIsLeafLabel(row: seq<int>, n: Node, w: nat)
    requires WellFormed(n, w) && Fits(row, n)
    ensures PredictRow(row, n) in AllLabels(n)
    ensures n.Split? && FindBranch(n.branches, row[n.feature]) < 0 ==> IsMajority(PredictRow(row, n), AllLabels(n))
    decreases n
  {
    match n
    case Leaf(_) =>
    case Split(f, _, bs) =>
      var k := FindBranch(bs, row[f]);
      if k < 0 {
        AllLabelsNonEmpty(n, w);
      } else {
        PredictRowIsLeafLabel(RemoveIndex(row, f), bs[k].child, w - 1);
        BranchLabelsContain(n, 0, k);
      }
  }

  /** Every leaf label under the branches of a split from branch `k` on is a leaf label of one of those branches. */
  lemma {:induction false} BranchOfLabel(n: Node, k: nat, l: int) returns (j: nat)
    requires n.Split? && l in BranchLabels(n, k)
    ensures k <= j < |n.branches| && l in AllLabels(n.branches[j].child)
    decreases |n.branches| - k
  {
    if l in AllLabels(n.branches[k].child) {
      j := k;
    } else {
      j := BranchOfLabel(n, k + 1, l);
    }
  }

  /**
   * Every leaf label of the tree built from non-empty labels `y` is one of
   * them: leaves only ever carry a label of their own rows.
   */
  lemma {:induction false} BuildTreeLabels(X: seq<seq<int>>, y: seq<int>, depth: int, maxDepth: int, gain: Gain)
    requires Rectangular(X) && |X| == |y| && |y| > 0
    ensures forall l :: l in AllLabels(BuildTree(X, y, depth, maxDepth, gain)) ==> l in y
    decreases Width(X), 1
  {
    match Decide(X, y, depth, maxDepth, gain)
    case MakeLeaf(_) =>
    case SplitOn(f) =>
      forall v | v in GetColumn(X, f)
        ensures forall l :: l in AllLabels(Subtree(X, y, f, v, depth + 1, maxDepth, gain)) ==> l in y
      {
        SubtreeLabels(X, y, depth + 1, maxDepth, gain, f, v);
      }
      SplitStepLabels(X, y, depth, maxDepth, gain, f);
  }

  lemma {:induction false} SubtreeLabels(X: seq<seq<int>>, y: seq<int>, depth: int, maxDepth: int, gain: Gain, f: nat, v: int)
    requires Rectangular(X) && |X| == |y| && f < Width(X)
    requires v in GetColumn(X, f)
    ensures forall l :: l in AllLabels(Subtree(X, y, f, v, depth, maxDepth, gain)) ==> l in y
    decreases Width(X), 0
  {
    ChildRows(X, f, v);
    var labels := LabelsWith(X, y, f, v);
    BuildTreeLabels(RowsWith(X, f, v), labels, depth, maxDepth, gain);
    forall l | l in labels
      ensures l in y
    {
      var k :| 0 <= k < |labels| && labels[k] == l;
      assert labels[k] == y[MatchingRows(X, f, v)[k]];
    }
  }

  lemma SplitStepLabels(X: seq<seq<int>>, y: seq<int>, depth: int, maxDepth: int, gain: Gain, f: nat)
    requires Rectangular(X) && |X| == |y|
    requires Decide(X, y, depth, maxDepth, gain) == SplitOn(f)
    requires forall v :: v in GetColumn(X, f) ==>
      forall l :: l in AllLabels(Subtree(X, y, f, v, depth + 1, maxDepth, gain)) ==> l in y
    ensures forall l :: l in AllLabels(BuildTree(X, y, depth, maxDepth, gain)) ==> l in y
  {
    BuildTreeUnfold(X, y, depth, maxDepth, gain, f);
    SplitNodeLabels(X, y, f, BuildTree(X, y, depth, maxDepth, gain), depth + 1, maxDepth, gain);
  }

  /** A split whose branches are the subtrees of column `f`'s values carries only leaf labels those subtrees carry. */
  lemma SplitNodeLabels(X: seq<seq<int>>, y: seq<int>, f: nat, n: Node, depth: int, maxDepth: int, gain: Gain)
    requires Rectangular(X) && |X| == |y| && f < Width(X)
    requires n.Split? && n.values == Distinct(GetColumn(X, f)) && |n.branches| == |n.values|
    requires forall k :: 0 <= k < |n.values| ==> n.branches[k] == Branch(n.values[k], Subtree(X, y, f, n.values[k], depth, maxDepth, gain))
    requires forall v :: v in GetColumn(X, f) ==>
      forall l :: l in AllLabels(Subtree(X, y, f, v, depth, maxDepth, gain)) ==> l in y
    ensures forall l :: l in AllLabels(n) ==> l in y
  {
    forall l | l in AllLabels(n)
      ensures l in y
    {
      var k := BranchOfLabel(n, 0, l);
      assert n.values[k] in GetColumn(X, f);
    }
  }

  /** A row that never hits the fallback has every column prediction reads. */
  lemma {:induction false} FollowsFits(row: seq<int>, n: Node)
    requires Follows(row, n)
    ensures Fits(row, n)
    decreases n
  {
    match n
    case Leaf(_) =>
    case Split(f, _, bs) =>
      FollowsFits(RemoveIndex(row, f), bs[FindBranch(bs, row[f])].child);
  }

  /** Sum of the counts in `col` of each value of `vals`. */
  function SumCounts(col: seq<int>, vals: seq<int>): nat
  {
    if |vals| == 0 then 0 else Count(col, vals[0]) + SumCounts(col, vals[1..])
  }

  lemma {:induction false} SumCountsEmpty(vals: seq<int>)
    ensures SumCounts([], vals) == 0
  {
    if |vals| > 0 {
      SumCountsEmpty(vals[1..]);
    }
  }

  lemma {:induction false} SumCountsSnoc(col: seq<int>, c: int, vals: seq<int>)
    requires NoDup(vals)
    ensures SumCounts(col + [c], vals) == SumCounts(col, vals) + (if c in vals then 1 else 0)
  {
    if |vals| > 0 {
      SumCountsSnoc(col, c, vals[1..]);
      assert multiset(col + [c]) == multiset(col) + multiset{c};
      assert c in vals <==> c == vals[0] || c in vals[1..];
      if c == vals[0] {
        assert c !in vals[1..];
      }
    }
  }

  /** Counting each distinct value once over a column that holds only those values counts every entry exactly once. */
  lemma {:induction false} SumCountsCovers(col: seq<int>, vals: seq<int>)
    requires NoDup(vals)
    requires forall i :: 0 <= i < |col| ==> col[i] in vals
    ensures SumCounts(col, vals) == |col|
  {
    if |col| == 0 {
      SumCountsEmpty(vals);
    } else {
      var init := col[..|col| - 1];
      assert col == init + [col[|col| - 1]];
      SumCountsCovers(init, vals);
      SumCountsSnoc(init, col[|col| - 1], vals);
    }
  }

  /** Total number of rows sent to the children for the values `vals` of column `f`. */
  function SumSizes(X: seq<seq<int>>, f: nat, vals: seq<int>): nat
    requires HasColumn(X, f)
  {
    if |vals| == 0 then 0 else |MatchingRows(X, f, vals[0])| + SumSizes(X, f, vals[1..])
  }

  lemma {:induction false} SumSizesIsSumCounts(X: seq<seq<int>>, f: nat, vals: seq<int>)
    requires HasColumn(X, f)
    ensures SumSizes(X, f, vals) == SumCounts(GetColumn(X, f), vals)
  {
    if |vals| > 0 {
      SumSizesIsSumCounts(X, f, vals[1..]);
    }
  }

  /**
   * Splitting on column `f` partitions the rows: for each distinct value of
   * the column, the selected rows are exactly those holding it, there is at
   * least one, and the numbers selected add up to the number of rows.
   */
  lemma ColumnPartition(X: seq<seq<int>>, f: nat)
    requires HasColumn(X, f)
    ensures var vals := Distinct(GetColumn(X, f));
      && (forall k :: 0 <= k < |vals| ==> |MatchingRows(X, f, vals[k])| > 0)
      && (forall i, k :: 0 <= i < |X| && 0 <= k < |vals| ==> (i in MatchingRows(X, f, vals[k]) <==> X[i][f] == vals[k]))
      && SumSizes(X, f, vals) == |X|
  {
    var col := GetColumn(X, f);
    var vals := Distinct(col);
    forall k | 0 <= k < |vals|
      ensures |MatchingRows(X, f, vals[k])| > 0
    {
      assert vals[k] in multiset(col);
    }
    SumSizesIsSumCounts(X, f, vals);
    SumCountsCovers(col, vals);
  }

  /**
   * A split node of the built tree: its feature is the column `bestSplit`
   * chose, its values are the distinct values of that column, each once, and
   * branch `k` is the subtree grown, one level deeper, from exactly the rows
   * holding `values[k]` with that column deleted (non-empty, rectangular, one
   * column narrower). Together with ColumnPartition: every row goes to the
   * child of its own value and the children's row counts add up to `|X|`.
   */
  lemma BuildTreeSplit(X: seq<seq<int>>, y: seq<int>, depth: int, maxDepth: int, gain: Gain)
    requires Rectangular(X) && |X| == |y|
    ensures var n := BuildTree(X, y, depth, maxDepth, gain);
      n.Split? ==>
        && Decide(X, y, depth, maxDepth, gain) == SplitOn(n.feature)
        && n.feature < Width(X)
        && n.values == Distinct(GetColumn(X, n.feature))
        && NoDup(n.values)
        && (forall k :: 0 <= k < |n.values| ==> n.values[k] in GetColumn(X, n.feature))
        && (forall i :: 0 <= i < |X| ==> X[i][n.feature] in n.values)
        && |n.branches| == |n.values|
        && (forall k :: 0 <= k < |n.values| ==>
              && Rectangular(RowsWith(X, n.feature, n.values[k]))
              && Width(RowsWith(X, n.feature, n.values[k])) == Width(X) - 1
              && n.branches[k] == Branch(n.values[k], Subtree(X, y, n.feature, n.values[k], depth + 1, maxDepth, gain)))
        && SumSizes(X, n.feature, n.values) == |X|
  {
    match Decide(X, y, depth, maxDepth, gain)
    case MakeLeaf(_) =>
    case SplitOn(f) =>
      BuildTreeUnfold(X, y, depth, maxDepth, gain, f);
      var col := GetColumn(X, f);
      var vals := Distinct(col);
      forall k | 0 <= k < |vals|
        ensures Rectangular(RowsWith(X, f, vals[k])) && Width(RowsWith(X, f, vals[k])) == Width(X) - 1
      {
        ChildRows(X, f, vals[k]);
      }
      forall i | 0 <= i < |X|
        ensures X[i][f] in vals
      {
        assert col[i] == X[i][f];
      }
      ColumnPartition(X, f);
  }

  /**
   * The training labels that end up in the same leaf as training row `i`:
   * the labels of the node where `buildTree` stops on the path row `i`
   * follows.
   */
  ghost function LeafGroup(X: seq<seq<int>>, y: seq<int>, depth: int, maxDepth: int, gain: Gain, i: nat): seq<int>
    requires Rectangular(X) && |X| == |y| && i < |X|
    decreases Width(X)
  {
    match Decide(X, y, depth, maxDepth, gain)
    case MakeLeaf(_) => y
    case SplitOn(f) =>
      var v := X[i][f];
      LeafGroup(RowsWith(X, f, v), LabelsWith(X, y, f, v), depth + 1, maxDepth, gain, FirstIndex(MatchingRows(X, f, v), i))
  }

  /**
   * Predicting a training row: every split on its path has a child for the
   * row's value (the unseen-value fallback is never taken), and the answer is
   * a most frequent label among the training rows that reach the same leaf,
   * which include the row itself. So when those labels agree, the prediction
   * is the row's own training label.
   */
  lemma {:induction false} PredictOnTrainingRow(X: seq<seq<int>>, y: seq<int>, depth: int, maxDepth: int, gain: Gain, i: nat)
    requires Rectangular(X) && |X| == |y| && i < |X|
    ensures Follows(X[i], BuildTree(X, y, depth, maxDepth, gain))
    ensures Fits(X[i], BuildTree(X, y, depth, maxDepth, gain))
    ensures y[i] in LeafGroup(X, y, depth, maxDepth, gain, i)
    ensures IsMajority(PredictRow(X[i], BuildTree(X, y, depth, maxDepth, gain)), LeafGroup(X, y, depth, maxDepth, gain, i))
    ensures (forall j :: 0 <= j < |LeafGroup(X, y, depth, maxDepth, gain, i)| ==>
               LeafGroup(X, y, depth, maxDepth, gain, i)[j] == y[i])
            ==> PredictRow(X[i], BuildTree(X, y, depth, maxDepth, gain)) == y[i]
    decreases Width(X), 1
  {
    match Decide(X, y, depth, maxDepth, gain)
    case MakeLeaf(_) =>
    case SplitOn(f) =>
      SubtreeOnTrainingRow(X, y, depth + 1, maxDepth, gain, f, i);
      TrainingRowSplitStep(X, y, depth, maxDepth, gain, f, i);
      FollowsFits(X[i], BuildTree(X, y, depth, maxDepth, gain));
  }

  /** The training-row property for the subtree row `i` descends into, stated for the row with column `f` deleted. */
  lemma {:induction false} SubtreeOnTrainingRow(X: seq<seq<int>>, y: seq<int>, depth: int, maxDepth: int, gain: Gain, f: nat, i: nat)
    requires Rectangular(X) && |X| == |y| && f < Width(X) && i < |X|
    ensures var v := X[i][f];
      var t := Subtree(X, y, f, v, depth, maxDepth, gain);
      var g := LeafGroup(RowsWith(X, f, v), LabelsWith(X, y, f, v), depth, maxDepth, gain, FirstIndex(MatchingRows(X, f, v), i));
      && Follows(RemoveIndex(X[i], f), t)
      && Fits(RemoveIndex(X[i], f), t)
      && y[i] in g
      && IsMajority(PredictRow(RemoveIndex(X[i], f), t), g)
    decreases Width(X), 0
  {
    var v := X[i][f];
    var j := FirstIndex(MatchingRows(X, f, v), i);
    var rows := RowsWith(X, f, v);
    var labels := LabelsWith(X, y, f, v);
    assert rows[j] == RemoveIndex(X[i], f);
    assert labels[j] == y[i];
    PredictOnTrainingRow(rows, labels, depth, maxDepth, gain, j);
  }

  lemma TrainingRowSplitStep(X: seq<seq<int>>, y: seq<int>, depth: int, maxDepth: int, gain: Gain, f: nat, i: nat)
    requires Rectangular(X) && |X| == |y| && i < |X|
    requires Decide(X, y, depth, maxDepth, gain) == SplitOn(f)
    requires var v := X[i][f];
      var t := Subtree(X, y, f, v, depth + 1, maxDepth, gain);
      var g := LeafGroup(RowsWith(X, f, v), LabelsWith(X, y, f, v), depth + 1, maxDepth, gain, FirstIndex(MatchingRows(X, f, v), i));
      && Follows(RemoveIndex(X[i], f), t)
      && Fits(RemoveIndex(X[i], f), t)
      && y[i] in g
      && IsMajority(PredictRow(RemoveIndex(X[i], f), t), g)
    ensures Follows(X[i], BuildTree(X, y, depth, maxDepth, gain))
    ensures Fits(X[i], BuildTree(X, y, depth, maxDepth, gain))
    ensures y[i] in LeafGroup(X, y, depth, maxDepth, gain, i)
    ensures IsMajority(PredictRow(X[i], BuildTree(X, y, depth, maxDepth, gain)), LeafGroup(X, y, depth, maxDepth, gain, i))
  {
    var v := X[i][f];
    var n := BuildTree(X, y, depth, maxDepth, gain);
    var k := TrainingRowBranch(X, y, depth, maxDepth, gain, f, i);
    DescendSplit(X[i], n, k);
    LeafGroupUnfold(X, y, depth, maxDepth, gain, f, i);
  }

  /** On a split, training row `i` finds the branch of its own value, which holds the subtree for that value. */
  lemma TrainingRowBranch(X: seq<seq<int>>, y: seq<int>, depth: int, maxDepth: int, gain: Gain, f: nat, i: nat) returns (k: nat)
    requires Rectangular(X) && |X| == |y| && i < |X|
    requires Decide(X, y, depth, maxDepth, gain) == SplitOn(f)
    ensures f < Width(X)
    ensures var n := BuildTree(X, y, depth, maxDepth, gain);
      && n.Split? && n.feature == f && f < |X[i]|
      && k == FindBranch(n.branches, X[i][f]) && k < |n.branches|
      && n.branches[k].child == Subtree(X, y, f, X[i][f], depth + 1, maxDepth, gain)
  {
    BuildTreeUnfold(X, y, depth, maxDepth, gain, f);
    assert GetColumn(X, f)[i] == X[i][f];
    k := SplitNodeBranch(X, y, f, BuildTree(X, y, depth, maxDepth, gain), depth + 1, maxDepth, gain, X[i][f]);
  }

  /** In a split over the distinct values of column `f`, a value seen in the column finds the branch holding its subtree. */
  lemma SplitNodeBranch(X: seq<seq<int>>, y: seq<int>, f: nat, n: Node, depth: int, maxDepth: int, gain: Gain, v: int) returns (k: nat)
    requires Rectangular(X) && |X| == |y| && f < Width(X)
    requires n.Split? && n.values == Distinct(GetColumn(X, f)) && |n.branches| == |n.values|
    requires forall k :: 0 <= k < |n.values| ==> n.branches[k] == Branch(n.values[k], Subtree(X, y, f, n.values[k], depth, maxDepth, gain))
    requires v in GetColumn(X, f)
    ensures k == FindBranch(n.branches, v) && k < |n.branches|
    ensures n.branches[k].child == Subtree(X, y, f, v, depth, maxDepth, gain)
  {
    var j := FirstIndex(n.values, v);
    assert n.branches[j].value == v;
    k := FindBranch(n.branches, v);
    assert n.values[k] == v;
  }

  /** A row that finds a branch at a split is predicted, and fits and follows, as its reduced row in that branch. */
  lemma DescendSplit(row: seq<int>, n: Node, k: nat)
    requires n.Split? && n.feature < |row| && k == FindBranch(n.branches, row[n.feature]) && k < |n.branches|
    requires Fits(RemoveIndex(row, n.feature), n.branches[k].child)
    ensures Fits(row, n)
    ensures PredictRow(row, n) == PredictRow(RemoveIndex(row, n.feature), n.branches[k].child)
    ensures Follows(RemoveIndex(row, n.feature), n.branches[k].child) ==> Follows(row, n)
  {
  }

  /** On a split, the leaf group of row `i` is the leaf group of its position among the rows of its value. */
  lemma LeafGroupUnfold(X: seq<seq<int>>, y: seq<int>, depth: int, maxDepth: int, gain: Gain, f: nat, i: nat)
    requires Rectangular(X) && |X| == |y| && i < |X|
    requires Decide(X, y, depth, maxDepth, gain) == SplitOn(f)
    ensures f < Width(X)
    ensures LeafGroup(X, y, depth, maxDepth, gain, i)
         == LeafGroup(RowsWith(X, f, X[i][f]), LabelsWith(X, y, f, X[i][f]), depth + 1, maxDepth, gain, FirstIndex(MatchingRows(X, f, X[i][f]), i))
  {
  }
}

=== FILE: tree_util.dfy ===
/**
 * The list helpers of the decision-tree classifier: majority vote, column
 * extraction, row selection and column deletion. Rows are `seq<int>`, a
 * dataset is `seq<seq<int>>`.
 */
module TreeUtil {
  import opened Seqs

  /** `l` occurs in `y` and no label of `y` occurs more often. */
  predicate IsMajority(l: int, y: seq<int>)
  {
    l in y && forall m :: m in y ==> Count(y, m) <= Count(y, l)
  }

  /**
   * The counting loop of `majorityLabel` run over the labels in `order` (the
   * iteration order of the Go count map): a label replaces the current
   * majority only when its count is strictly greater than the best so far.
   */
  function MajorityScan(order: seq<int>, y: seq<int>, maxCount: nat, majority: int): int
    decreases |order|
  {
    if |order| == 0 then majority
    else if Count(y, order[0]) > maxCount then MajorityScan(order[1..], y, Count(y, order[0]), order[0])
    else MajorityScan(order[1..], y, maxCount, majority)
  }

  /** The scan either keeps its starting candidate, beaten by nobody, or ends on a label of `order` beaten by nobody. */
  lemma {:induction false} MajorityScanSpec(order: seq<int>, y: seq<int>, maxCount: nat, majority: int)
    ensures var r := MajorityScan(order, y, maxCount, majority);
      || (r == majority && forall x :: x in order ==> Count(y, x) <= maxCount)
      || (r in order && maxCount < Count(y, r) && forall x :: x in order ==> Count(y, x) <= Count(y, r))
  {
    if |order| > 0 {
      var c := Count(y, order[0]);
      if c > maxCount {
        MajorityScanSpec(order[1..], y, c, order[0]);
      } else {
        MajorityScanSpec(order[1..], y, maxCount, majority);
      }
      assert forall x :: x in order ==> x == order[0] || x in order[1..];
    }
  }

  /**
   * Whatever order the Go map yields its keys in, `majorityLabel` returns -1
   * on no labels and otherwise a label of `y` with maximal count.
   */
  lemma MajorityAnyOrder(order: seq<int>, y: seq<int>)
    requires forall i :: 0 <= i < |order| ==> order[i] in y
    requires forall i :: 0 <= i < |y| ==> y[i] in order
    ensures |y| == 0 ==> MajorityScan(order, y, 0, -1) == -1
    ensures |y| > 0 ==> IsMajority(MajorityScan(order, y, 0, -1), y)
  {
    MajorityScanSpec(order, y, 0, -1);
    forall m | m in y
      ensures m in order
    {
      var i :| 0 <= i < |y| && y[i] == m;
    }
    if |y| > 0 {
      assert y[0] in order;
      assert Count(y, y[0]) > 0;
    }
  }

  /**
   * `majorityLabel`: -1 for no labels, else a most frequent label. The model
   * enumerates the count map's keys in first-seen order; the contract holds
   * for every enumeration order (MajorityAnyOrder), so no tie-break is promised.
   */
  function MajorityLabel(y: seq<int>): (r: int)
    ensures |y| == 0 ==> r == -1
    ensures |y| > 0 ==> IsMajority(r, y)
  {
    MajorityAnyOrder(Distinct(y), y);
    MajorityScan(Distinct(y), y, 0, -1)
  }

  /** Every row of `X` has a column `col`. */
  predicate HasColumn(X: seq<seq<int>>, col: nat)
  {
    forall i :: 0 <= i < |X| ==> col < |X[i]|
  }

  /** `getColumn`: the values of column `col`, one per row. */
  function GetColumn(X: seq<seq<int>>, col: nat): seq<int>
    requires HasColumn(X, col)
  {
    seq(|X|, i requires 0 <= i < |X| => X[i][col])
  }

  /**
   * The index loop of `buildTree`: the positions of the rows whose column `f`
   * holds `v`, in increasing order.
   */
  function MatchingRows(X: seq<seq<int>>, f: nat, v: int): (idx: seq<nat>)
    requires HasColumn(X, f)
    ensures forall k :: 0 <= k < |idx| ==> idx[k] < |X| && X[idx[k]][f] == v
    ensures forall i :: 0 <= i < |X| && X[i][f] == v ==> i in idx
    ensures forall k, l :: 0 <= k < l < |idx| ==> idx[k] < idx[l]
    ensures |idx| == Count(GetColumn(X, f), v)
  {
    assert GetColumn(X, f)[0..] == GetColumn(X, f);
    MatchingFromComplete(X, f, v, 0);
    MatchingFromCount(X, f, v, 0);
    MatchingFrom(X, f, v, 0)
  }

  /** The index loop from row `i` on. */
  function MatchingFrom(X: seq<seq<int>>, f: nat, v: int, i: nat): (idx: seq<nat>)
    requires HasColumn(X, f) && i <= |X|
    ensures forall k :: 0 <= k < |idx| ==> i <= idx[k] < |X| && X[idx[k]][f] == v
    ensures forall k, l :: 0 <= k < l < |idx| ==> idx[k] < idx[l]
    decreases |X| - i
  {
    if i == |X| then []
    else (if X[i][f] == v then [i] else []) + MatchingFrom(X, f, v, i + 1)
  }

  /** As many rows are selected as column `f` holds copies of `v` from row `i` on. */
  lemma {:induction false} MatchingFromCount(X: seq<seq<int>>, f: nat, v: int, i: nat)
    requires HasColumn(X, f) && i <= |X|
    ensures |MatchingFrom(X, f, v, i)| == Count(GetColumn(X, f)[i..], v)
    decreases |X| - i
  {
    if i < |X| {
      MatchingFromCount(X, f, v, i + 1);
      var col := GetColumn(X, f);
      assert col[i..] == [col[i]] + col[i + 1..];
      CountCons(col[i], col[i + 1..], v);
    }
  }

  /** Every row from `i` on whose column `f` holds `v` is selected. */
  lemma {:induction false} MatchingFromComplete(X: seq<seq<int>>, f: nat, v: int, i: nat)
    requires HasColumn(X, f) && i <= |X|
    ensures forall j :: i <= j < |X| && X[j][f] == v ==> j in MatchingFrom(X, f, v, i)
    decreases |X| - i
  {
    if i < |X| {
      MatchingFromComplete(X, f, v, i + 1);
      var rest := MatchingFrom(X, f, v, i + 1);
      var idx := MatchingFrom(X, f, v, i);
      var head: seq<nat> := if X[i][f] == v then [i] else [];
      assert idx == head + rest;
      forall j | i <= j < |X| && X[j][f] == v
        ensures j in idx
      {
        if j == i {
          assert idx[0] == j;
        } else {
          assert j in rest;
        }
      }
    }
  }

  /** `subsetInts`: the entries of `arr` at the given positions, in that order. */
  function SubsetInts(arr: seq<int>, indices: seq<nat>): seq<int>
    requires forall k :: 0 <= k < |indices| ==> indices[k] < |arr|
  {
    seq(|indices|, k requires 0 <= k < |indices| => arr[indices[k]])
  }

  /** `removeIndexInt`: `arr` with the element at `idx` deleted. */
  function RemoveIndex(arr: seq<int>, idx: nat): (r: seq<int>)
    requires idx < |arr|
    ensures |r| == |arr| - 1
    ensures forall j :: 0 <= j < idx ==> r[j] == arr[j]
    ensures forall j :: idx <= j < |r| ==> r[j] == arr[j + 1]
  {
    arr[..idx] + arr[idx + 1..]
  }

  /** Putting the deleted element back restores the row: nothing else moved. */
  lemma RemoveIndexRestores(arr: seq<int>, idx: nat)
    requires idx < |arr|
    ensures RemoveIndex(arr, idx)[..idx] + [arr[idx]] + RemoveIndex(arr, idx)[idx..] == arr
  {
    var r := RemoveIndex(arr, idx);
    assert r[..idx] == arr[..idx];
    assert r[idx..] == arr[idx + 1..];
  }

  /** The inner loop of `subsetRemoveColumn`: entries of `row` from position `j` on, skipping position `col`. */
  function KeepColumns(row: seq<int>, col: nat, j: nat): seq<int>
    decreases |row| - j
  {
    if j >= |row| then [] else (if j != col then [row[j]] else []) + KeepColumns(row, col, j + 1)
  }

  /** The skipping loop deletes exactly position `col`, like `RemoveIndex`, and keeps a row without that column whole. */
  lemma {:induction false} KeepColumnsFrom(row: seq<int>, col: nat, j: nat)
    requires j <= |row|
    ensures j <= col < |row| ==> KeepColumns(row, col, j) == row[j..col] + row[col + 1..]
    ensures col < j || col >= |row| ==> KeepColumns(row, col, j) == row[j..]
    decreases |row| - j
  {
    if j < |row| {
      KeepColumnsFrom(row, col, j + 1);
      var rest := KeepColumns(row, col, j + 1);
      assert row[j..] == [row[j]] + row[j + 1..];
      if j == col {
        assert KeepColumns(row, col, j) == rest;
      } else if j < col < |row| {
        assert row[j..col] == [row[j]] + row[j + 1..col];
        assert KeepColumns(row, col, j) == [row[j]] + rest;
      } else {
        assert KeepColumns(row, col, j) == [row[j]] + rest;
      }
    }
  }

  /**
   * `subsetRemoveColumn`: the rows at `indices`, each with column `col`
   * deleted (a row too short to have that column is kept whole).
   */
  function SubsetRemoveColumn(X: seq<seq<int>>, indices: seq<nat>, col: nat): (r: seq<seq<int>>)
    requires forall k :: 0 <= k < |indices| ==> indices[k] < |X|
    ensures |r| == |indices|
    ensures forall k :: 0 <= k < |r| && col < |X[indices[k]]| ==> r[k] == RemoveIndex(X[indices[k]], col)
    ensures forall k :: 0 <= k < |r| && |X[indices[k]]| <= col ==> r[k] == X[indices[k]]
  {
    var r := seq(|indices|, k requires 0 <= k < |indices| => KeepColumns(X[indices[k]], col, 0));
    assert forall k :: 0 <= k < |r| ==> r[k] == KeepColumns(X[indices[k]], col, 0);
    SubsetRemoveColumnRows(X, indices, col);
    r
  }

  lemma SubsetRemoveColumnRows(X: seq<seq<int>>, indices: seq<nat>, col: nat)
    requires forall k :: 0 <= k < |indices| ==> indices[k] < |X|
    ensures forall k :: 0 <= k < |indices| && col < |X[indices[k]]| ==>
      KeepColumns(X[indices[k]], col, 0) == RemoveIndex(X[indices[k]], col)
    ensures forall k :: 0 <= k < |indices| && |X[indices[k]]| <= col ==>
      KeepColumns(X[indices[k]], col, 0) == X[indices[k]]
  {
    forall k | 0 <= k < |indices| {
      KeepColumnsFrom(X[indices[k]], col, 0);
    }
  }
}
